=== FILE: README.md ===
# Posture optimisation of the momentumopt kinematics optimiser

This project models the core of `KinematicsOptimizer` in momentumopt: the
whole-body kinematics optimiser of a kino-dynamic motion planner. At each
iteration it asks the kinematics provider to refresh the robot state. It then
builds a quadratic program over a flat vector of optimisation variables, hands
that program to a convex solver, and writes the solution back into the
variable blocks and the current state.

The modelled members of `KinematicsOptimizer` are these:

- `initializeKinematicVariables` gives the variable blocks their contiguous
  flat layout.
- `optimizePosture` contains the convergence loop. Inside it, a try block
  declares the variables, adds the objective terms and the constraints,
  solves, saves the solution and writes back the momenta.
- `addVariableToModel` and `saveSolution` are its two helpers.
- `optimize` makes the single posture run with the momentum terms switched off.

## Module layout

- `common.dfy` (`Common`): `Option`, `Result` with `:-`, `Vec3`, the solver's
  extended reals (`Extended`, `PosInf`), and the `int(...)` cast (`Truncate`).
- `variables.dfy` (`Variables`): single-column variable blocks, the `Layout`
  of the optimiser's blocks, `initializeKinematicVariables` and `saveSolution`.
- `robot.dfy` (`Robot`): the planner settings the core reads, the kinematic
  state, the desired dynamics state and the provider's matrices.
- `linear.dfy` (`Linear`): affine expressions, constraints and weighted
  squared terms as the core builds them, with their values under an assignment.
- `problem.dfy` (`Problem`): the inputs of one pass through the try block
  (`Snapshot`). It also defines the out-of-range reads that stop a build
  (`Fault`) and the constraints added so far (`Emission`).
- `declarations.dfy` (`Declarations`): `addVariableToModel` and the order the
  blocks are declared in.
- `objective.dfy` (`Objective`): the objective, and which variables it weighs.
- `constraints.dfy` (`Constraints`): the constraint list, loop by loop, and
  what each constraint means.
- `writeback.dfy` (`WriteBack`): copying the solution, saving it into every
  block, and writing the momenta into the current state.
- `posture.dfy` (`Posture`): the try block, the convergence loop,
  `optimizePosture` and `optimize`.

## What the code does

Four facts about the code as written shape everything the loop does.

**The tracking error is always zero.** The loop that sums it stops at
`axis_id < 0`, so its body never runs. With a positive tolerance, the first
convergence test therefore succeeds, and the loop stops after one provider
refresh without building a program (`Posture.ConvergesAtOnce`).

**A build that declares its variables always stops early.** The rows of the
centroidal momentum matrix loop over the dofs `0 .. NumActiveDofs+5`. At each
dof they read a variable row, and from dof 6 on also the entry
`ActiveDofs[dof]`.

- The centre-of-mass-rate row reads `jnt_qd_`, which has only `NumActiveDofs`
  rows, so it reads past the end of `jnt_qd_`.
- The linear- and angular-momentum rows read `total_qd_`, which also has only
  `NumActiveDofs` rows. They would overrun it the same way, but the build
  never gets to them.

So every build stops in the com-rate row of axis 0. This holds whatever
`OptimizationVariable::id` yields for a row past a block's end; the
definition of `id` is not part of this model
(`Constraints.RateRowStopsWhateverId`).

- With at least one active dof, the same row also reads `ActiveDofs` past its
  end, at dof max(6, NumActiveDofs).
- With no active dof, its first read, `jnt_qd_` row 0, is flat index
  `num_vars_`, one past the end of `vars_`.

The model takes `id(row, 0)` to be `base + row` for a row below the block's
row count. It stops the build at the first read past a block's end or past
`ActiveDofs`, with a `Fault` (`Problem.Lookup`, `Constraints.AxisStops`,
`Constraints.BuildStops`). Only which read is reported first depends on that
reading of `id` and on the order operands are evaluated in: the model reports
`jnt_qd_` row NumActiveDofs.

**The velocity loop reuses entries.** In that loop, the dofs 1, 2, 4 and 5
leave `lin_cons_` unchanged. They add the constraint of dof 0 or dof 3 once
more (`Constraints.VelocityLoop`).

**The posture target is shifted, not the index.** The target of the
default-posture term is the configured default of joint `ActiveDofs[dof]`
minus 6. The subtraction applies to the value, not to the index.

On the blocks `initializeKinematicVariables` allocates, `optimizePosture`
can therefore end in only three ways (`Posture.OptimizeInitialized`):

- no iteration at all;
- convergence at the first test;
- a fault in the first pass.

The solver is never reached (`Posture.NeverSolves`). `Posture.OptimizePosture`
also covers a layout with a block whose type is neither 'C' nor 'B'. Then the
"variable type not handled" exception is caught in every pass, until the
budget is spent. `initializeKinematicVariables` never builds such a layout
(`Declarations.InitializedHandled`).

The constraint loops, the objective and the write-back are still modelled and
specified in full. This keeps the model a faithful account of the build as
written.

## Model

Every source cell is a path relative to the repository root.

| member | source | states |
|---|---|---|
| Variables.InitializeVariables | src/catkin/motion_planning/momentumopt/src/momentumopt/kinopt/KinematicsOptimizer.cpp:32-54 | The blocks get the allocated shape. There are `n_endeffs_` end-effector pairs and `NumActiveDofs` rows per joint block, and `num_vars_` is 12 + 6·effectors + 4·active dofs. Every block is continuous, bounded by ±inf, and starts from a zero guess. |
| Variables.AllocateEndeffectors | src/catkin/motion_planning/momentumopt/src/momentumopt/kinopt/KinematicsOptimizer.cpp:44-47 | The end-effector loop gives effector `e` a position block at `counter + 6e` and a velocity block at `counter + 6e + 3`, each of three rows. It advances the counter by 6 per effector. |
| Variables.LayoutPartition | src/catkin/motion_planning/momentumopt/src/momentumopt/kinopt/KinematicsOptimizer.cpp:32-54 | Contiguous layout: in allocation order, each block starts where the previous one ends, from 0 to `num_vars_`. The blocks are pairwise disjoint, and every flat index below `num_vars_` belongs to exactly one block. |
| Variables.BlocksFit | src/catkin/motion_planning/momentumopt/src/momentumopt/kinopt/KinematicsOptimizer.cpp:32-54 | Every allocated block ends within the flat vector and holds one guess per row. |
| Variables.EndeffectorsChained | src/catkin/motion_planning/momentumopt/src/momentumopt/kinopt/KinematicsOptimizer.cpp:43-47 | The interleaved end-effector blocks run one after another from index 12 to 12 + 6·effectors. |
| Variables.SaveSolution | src/catkin/motion_planning/momentumopt/src/momentumopt/kinopt/KinematicsOptimizer.cpp:550-559 | The saved block holds one guess per row. Row `row`'s guess is the solution at the block's flat index `base + row`. Every other field of the block is unchanged. |
| WriteBack.SavedFixed | src/catkin/motion_planning/momentumopt/src/momentumopt/kinopt/KinematicsOptimizer.cpp:550-559 | A block whose guess is already its slice of the solution is left unchanged by `saveSolution`. |
| Variables.SaveOwnGuess | src/catkin/motion_planning/momentumopt/src/momentumopt/kinopt/KinematicsOptimizer.cpp:550-559 | Saving a solution that agrees with the block's guess at every row leaves the block unchanged. |
| Declarations.DeclareRows | src/catkin/motion_planning/momentumopt/src/momentumopt/kinopt/KinematicsOptimizer.cpp:534-547 | The row loop of `addVariableToModel` succeeds iff the block has no rows or is of type 'C' or 'B'. Otherwise it throws for that block's type. On success it declares each of the block's slots from that row's bounds, type and guess, and leaves every other slot as it was. |
| Common.Truncate | src/catkin/motion_planning/momentumopt/src/momentumopt/kinopt/KinematicsOptimizer.cpp:541 | The `int(...)` cast of a binary variable's bounds truncates toward zero: the result lies within one of the bound, on the side of zero. |
| Declarations.AddBlocksSpec | src/catkin/motion_planning/momentumopt/src/momentumopt/kinopt/KinematicsOptimizer.cpp:88-101 | The sequence of `addVariableToModel` calls succeeds iff every block is handled. Otherwise it throws for the first unhandled block. On success each owned slot is declared from its owner, and unowned slots are untouched. |
| Declarations.SameBlocks | src/catkin/motion_planning/momentumopt/src/momentumopt/kinopt/KinematicsOptimizer.cpp:88-101 | Declaring in source order (joint blocks before end-effector blocks) covers exactly the blocks that were allocated. |
| Declarations.InitializedHandled | src/catkin/motion_planning/momentumopt/src/momentumopt/kinopt/KinematicsOptimizer.cpp:32-54 | `initializeKinematicVariables` allocates only type-'C' blocks, so declaring them always succeeds. |
| Declarations.AddVariablesSucceeds | src/catkin/motion_planning/momentumopt/src/momentumopt/kinopt/KinematicsOptimizer.cpp:83-101 | The declarations succeed iff every block has a handled type. A failure names an unhandled block. |
| Declarations.AddVariablesDeclares | src/catkin/motion_planning/momentumopt/src/momentumopt/kinopt/KinematicsOptimizer.cpp:83-101 | After successful declarations, every slot of every block is declared with that block's bounds, type and cached guess. |
| Declarations.AddVariablesComplete | src/catkin/motion_planning/momentumopt/src/momentumopt/kinopt/KinematicsOptimizer.cpp:83-101 | After successful declarations no entry of `vars_` below `num_vars_` is left undeclared. |
| Objective.MomentumTouches | src/catkin/motion_planning/momentumopt/src/momentumopt/kinopt/KinematicsOptimizer.cpp:110-119 | The four momentum terms of an axis weigh exactly the linear-momentum and the angular-momentum variable of that axis. |
| Objective.SoftTouches | src/catkin/motion_planning/momentumopt/src/momentumopt/kinopt/KinematicsOptimizer.cpp:126-133 | The end-effector loop of an axis weighs exactly the position rows of the inactive effectors below NumActiveEndeffectors. |
| Objective.AxisTouches | src/catkin/motion_planning/momentumopt/src/momentumopt/kinopt/KinematicsOptimizer.cpp:105-134 | One pass of the axis loop weighs exactly the following: the center-of-mass row of the axis; the momentum rows of the axis when `is_not_initial_state`; the soft-tracked effector rows. |
| Objective.AxesTracked | src/catkin/motion_planning/momentumopt/src/momentumopt/kinopt/KinematicsOptimizer.cpp:105-134 | The three axis passes together weigh exactly the following: the center of mass; the momenta when `is_not_initial_state`; the position blocks of the inactive effectors below NumActiveEndeffectors. |
| Objective.PostureTouches | src/catkin/motion_planning/momentumopt/src/momentumopt/kinopt/KinematicsOptimizer.cpp:137-139 | The default-posture terms weigh exactly the rows of `jnt_q_` from 6 on, one term each. |
| Objective.VelocityTouches | src/catkin/motion_planning/momentumopt/src/momentumopt/kinopt/KinematicsOptimizer.cpp:142-143 | The joint-velocity terms weigh exactly the rows of `total_qd_`. |
| Objective.AccelerationTouches | src/catkin/motion_planning/momentumopt/src/momentumopt/kinopt/KinematicsOptimizer.cpp:146-147 | The joint-acceleration terms weigh exactly the rows of `total_qdd_`. |
| Objective.ObjectiveTouches | src/catkin/motion_planning/momentumopt/src/momentumopt/kinopt/KinematicsOptimizer.cpp:103-149 | The objective weighs exactly the following flat indices: the center of mass; the momenta when `is_not_initial_state`; the soft-tracked effector positions; joint positions from row 6 on; all total velocities and accelerations. |
| Objective.MomentumGated | src/catkin/motion_planning/momentumopt/src/momentumopt/kinopt/KinematicsOptimizer.cpp:110-119 | A linear- or angular-momentum row is weighed by the objective iff `is_not_initial_state`. |
| Objective.SoftTracked | src/catkin/motion_planning/momentumopt/src/momentumopt/kinopt/KinematicsOptimizer.cpp:125-133 | An end-effector position row is weighed by the objective iff the effector is below NumActiveEndeffectors and inactive. |
| Objective.MomentumRateMeaning | src/catkin/motion_planning/momentumopt/src/momentumopt/kinopt/KinematicsOptimizer.cpp:115-118 | The momentum-rate terms are the finite differences (momentum variable − start momentum) / dt. |
| Objective.ComTargetMeaning | src/catkin/motion_planning/momentumopt/src/momentumopt/kinopt/KinematicsOptimizer.cpp:108-109 | The center-of-mass term of an axis has weight `WeightKinematicTrackingCenterOfMass[axis]`. Its value is the desired com minus the com variable. |
| Objective.MomentumTargetMeaning | src/catkin/motion_planning/momentumopt/src/momentumopt/kinopt/KinematicsOptimizer.cpp:111-114 | The two momentum-tracking terms of an axis have the momentum-tracking weights. Their values are the desired linear and angular momentum minus the momentum variables. |
| Objective.SoftTargetMeaning | src/catkin/motion_planning/momentumopt/src/momentumopt/kinopt/KinematicsOptimizer.cpp:131-132 | The soft term of an effector has weight `WeightKinematicTrackingEndeffectorPosition[axis]`. Its value is the desired effector position minus the position variable. |
| Objective.RegularisationMeaning | src/catkin/motion_planning/momentumopt/src/momentumopt/kinopt/KinematicsOptimizer.cpp:142-147 | The velocity and acceleration terms of dof `d` have weights `WeightJointVelocity[d]` and `WeightJointAcceleration[d]`. Their values are `total_qd[d]` and `total_qdd[d]`. |
| Objective.PostureTargetMeaning | src/catkin/motion_planning/momentumopt/src/momentumopt/kinopt/KinematicsOptimizer.cpp:137-139 | The term of dof `d` has weight `WeightKinematicDefaultJointPositions[d-6]`. Its value is the default of joint `ActiveDofs[d]`, minus 6, minus `jnt_q[d]`. |
| Constraints.RowProduct | src/catkin/motion_planning/momentumopt/src/momentumopt/kinopt/KinematicsOptimizer.cpp:157-161 | The row-product loop over the dofs up to NumActiveDofs+5 succeeds only when it never indexes past the block or past ActiveDofs. Otherwise it fails at the first such read, and the row is looked up before the ActiveDofs entry. |
| Constraints.JointPositionExpr | src/catkin/motion_planning/momentumopt/src/momentumopt/kinopt/KinematicsOptimizer.cpp:196 | The position expression of dof `d` exists iff `d + 6 < NumActiveDofs`. Otherwise the read of row `d + 6` of `jnt_qd_` fails, or the read of `jnt_q_` when `d` itself is past it. |
| Constraints.VelocityExpr | src/catkin/motion_planning/momentumopt/src/momentumopt/kinopt/KinematicsOptimizer.cpp:207 | The velocity expression of dof `d` exists iff `d < NumActiveDofs`. Otherwise the read of row `d` of `total_qd_` fails. |
| Constraints.AccelerationExpr | src/catkin/motion_planning/momentumopt/src/momentumopt/kinopt/KinematicsOptimizer.cpp:214-216 | The acceleration expression of dof `d` exists iff `d < NumActiveDofs`. Otherwise the read of row `d` of `total_qdd_` fails. |
| Constraints.AxisStops | src/catkin/motion_planning/momentumopt/src/momentumopt/kinopt/KinematicsOptimizer.cpp:152-162 | Every pass of the axis loop adds the center-of-mass integration constraint. It then stops at row NumActiveDofs of `jnt_qd_` in the com-rate row. |
| Constraints.RateRowStopsWhateverId | src/catkin/motion_planning/momentumopt/src/momentumopt/kinopt/KinematicsOptimizer.cpp:157-161 | The com-rate row stops even if every `jnt_qd_` row it reads resolves. With at least one active dof it reads `ActiveDofs` past its end at dof max(6, NumActiveDofs). With none, its first read is flat index `num_vars_`. |
| Constraints.AxesStop | src/catkin/motion_planning/momentumopt/src/momentumopt/kinopt/KinematicsOptimizer.cpp:152-162 | The axis loop adds the com integration constraint of axis 0 and stops in that axis, so the joint loops after it are never reached. |
| Constraints.BuildStops | src/catkin/motion_planning/momentumopt/src/momentumopt/kinopt/KinematicsOptimizer.cpp:151-227 | The whole constraint build adds one constraint and stops in the first axis pass. |
| Constraints.PositionLoop | src/catkin/motion_planning/momentumopt/src/momentumopt/kinopt/KinematicsOptimizer.cpp:195-198 | The joint-position loop adds the integration constraint of each dof below NumActiveDofs−6, in order. It then stops at row max(6, NumActiveDofs) of `jnt_qd_`. With no active dof it adds nothing. |
| Constraints.PositionsFrom | src/catkin/motion_planning/momentumopt/src/momentumopt/kinopt/KinematicsOptimizer.cpp:195-198 | By induction from any dof on: the loop adds that dof's integration constraint and each later one in order, then stops at row max(6, NumActiveDofs) of `jnt_qd_`. |
| Constraints.VelocityLoop | src/catkin/motion_planning/momentumopt/src/momentumopt/kinopt/KinematicsOptimizer.cpp:201-211 | The velocity loop adds, for dofs 0-2, dof 0's constraint; for dofs 3-5, dof 3's constraint; and from 6 on, each dof's own. It stops at the first assigned dof whose `total_qd_` row does not exist. |
| Constraints.VelocityFrom | src/catkin/motion_planning/momentumopt/src/momentumopt/kinopt/KinematicsOptimizer.cpp:201-211 | By induction from any dof on: the entry left in `lin_cons_` by the previous pass is the constraint of its owner. The loop adds each dof's owner constraint in order. It stops at the first dof that reads a missing `total_qd_` row, which is 0, 3, 6 or NumActiveDofs. |
| Constraints.VelocityLoopIgnoresEntry | src/catkin/motion_planning/momentumopt/src/momentumopt/kinopt/KinematicsOptimizer.cpp:201-211 | What `lin_cons_` holds before the velocity loop never reaches the model. |
| Constraints.AccelerationLoop | src/catkin/motion_planning/momentumopt/src/momentumopt/kinopt/KinematicsOptimizer.cpp:214-218 | The acceleration loop defines the acceleration of each active dof in order. It then stops at row NumActiveDofs of `total_qdd_`. |
| Constraints.AccelerationsFrom | src/catkin/motion_planning/momentumopt/src/momentumopt/kinopt/KinematicsOptimizer.cpp:214-218 | By induction from any dof on: the loop defines each active dof's acceleration in order, then stops at row NumActiveDofs of `total_qdd_`. |
| Constraints.LimitLoop | src/catkin/motion_planning/momentumopt/src/momentumopt/kinopt/KinematicsOptimizer.cpp:221-226 | The joint-limit loop never stops early and adds two inequalities per active dof. They all hold iff every active joint position lies within its configured limits. |
| Constraints.LimitsFrom | src/catkin/motion_planning/momentumopt/src/momentumopt/kinopt/KinematicsOptimizer.cpp:221-226 | The same holds for the joint-limit loop from any dof on, by induction over the loop. |
| Constraints.SoftOrPinned | src/catkin/motion_planning/momentumopt/src/momentumopt/kinopt/KinematicsOptimizer.cpp:125-133 | Soft and hard tracking of an end-effector position row are exclusive. The pin is added iff the effector is active. Below NumActiveEndeffectors, exactly one of the two applies. |
| Constraints.ComIntegrationMeaning | src/catkin/motion_planning/momentumopt/src/momentumopt/kinopt/KinematicsOptimizer.cpp:154-155 | The com constraint holds iff com = current com + (dt / mass)·comd. |
| Constraints.EffectorIntegrationMeaning | src/catkin/motion_planning/momentumopt/src/momentumopt/kinopt/KinematicsOptimizer.cpp:178-179 | The effector constraint holds iff position = current position + dt·velocity. |
| Constraints.PinMeaning | src/catkin/motion_planning/momentumopt/src/momentumopt/kinopt/KinematicsOptimizer.cpp:187-190 | The pin of an active effector holds iff its position variable equals the desired position. |
| Constraints.ReusedVelocityMeaning | src/catkin/motion_planning/momentumopt/src/momentumopt/kinopt/KinematicsOptimizer.cpp:207-210 | The constraint added at a dof holds iff, for the dof that owns it, `total_qd` = `jnt_q` / dt. |
| Constraints.PositionIntegrationMeaning | src/catkin/motion_planning/momentumopt/src/momentumopt/kinopt/KinematicsOptimizer.cpp:196-197 | The constraint holds iff `jnt_q[d]` = current position of joint `ActiveDofs[d]` + dt·`jnt_qd[d+6]`. |
| Constraints.AccelerationMeaning | src/catkin/motion_planning/momentumopt/src/momentumopt/kinopt/KinematicsOptimizer.cpp:214-217 | The constraint holds iff `total_qdd[d]` = (`total_qd[d]` − start velocity) / dt. |
| WriteBack.ReadSolution | src/catkin/motion_planning/momentumopt/src/momentumopt/kinopt/KinematicsOptimizer.cpp:231-233 | `solution_` has `num_vars_` entries, and entry `k` is the solver's value of variable `k`. |
| WriteBack.SaveAll | src/catkin/motion_planning/momentumopt/src/momentumopt/kinopt/KinematicsOptimizer.cpp:235-246 | The `saveSolution` calls keep the layout allocated and change no block's tag, kind, bounds, rows or base. |
| WriteBack.SaveAllHolds | src/catkin/motion_planning/momentumopt/src/momentumopt/kinopt/KinematicsOptimizer.cpp:235-246 | After the calls every block holds its slice of the solution. |
| WriteBack.SaveRoundTrip | src/catkin/motion_planning/momentumopt/src/momentumopt/kinopt/KinematicsOptimizer.cpp:231-246 | Round trip: every index below `num_vars_` is owned by a saved block. Reading that block's guess back at the index gives the solver's value. |
| WriteBack.SaveOwnSolution | src/catkin/motion_planning/momentumopt/src/momentumopt/kinopt/KinematicsOptimizer.cpp:235-246 | Saving a solution every block already holds changes nothing. |
| WriteBack.SaveIdempotent | src/catkin/motion_planning/momentumopt/src/momentumopt/kinopt/KinematicsOptimizer.cpp:235-246 | Saving the same solution twice is the same as saving it once. |
| WriteBack.WriteMomenta | src/catkin/motion_planning/momentumopt/src/momentumopt/kinopt/KinematicsOptimizer.cpp:249-250 | Storing the results changes only the linear and the angular momentum of the current state. |
| WriteBack.CommitMomenta | src/catkin/motion_planning/momentumopt/src/momentumopt/kinopt/KinematicsOptimizer.cpp:249-250 | After the write-back the current momenta are the solver's values at flat indices 6-8 and 9-11. |
| Posture.Attempt | src/catkin/motion_planning/momentumopt/src/momentumopt/kinopt/KinematicsOptimizer.cpp:80-256 | A pass through the try block has three outcomes: it throws and is caught, it stops at an out-of-range read, or it commits the solver's answer. `Sound` constrains only the committed case: the blocks keep their shape, and only the momenta of the current state change. `Posture.AttemptOutcome` shows that a pass never commits. |
| Posture.AttemptOutcome | src/catkin/motion_planning/momentumopt/src/momentumopt/kinopt/KinematicsOptimizer.cpp:80-162 | The try block throws while declaring the variables iff some block has an unhandled type. Otherwise it stops at row NumActiveDofs of `jnt_qd_`. |
| Posture.PassOutcome | src/catkin/motion_planning/momentumopt/src/momentumopt/kinopt/KinematicsOptimizer.cpp:80-162 | The outcome of the try block for a layout: caught exactly when a block's type is unhandled, and otherwise the `jnt_qd_` fault. |
| Posture.Loop | src/catkin/motion_planning/momentumopt/src/momentumopt/kinopt/KinematicsOptimizer.cpp:61-78 | The loop runs at most MaxKinConvergenceIterations passes. A run that converges or faults stops within the budget, at the iteration it reports. An exhausted run uses the whole budget. |
| Posture.ErrorIsZero | src/catkin/motion_planning/momentumopt/src/momentumopt/kinopt/KinematicsOptimizer.cpp:65-73 | The error is zero whatever the states, because the axis loop runs while `axis_id < 0`. |
| Posture.NeverConverges | src/catkin/motion_planning/momentumopt/src/momentumopt/kinopt/KinematicsOptimizer.cpp:59-77 | With a tolerance that is not positive, a zero error never passes the break test, whatever the previous error (initially +inf). |
| Posture.ConvergesAtOnce | src/catkin/motion_planning/momentumopt/src/momentumopt/kinopt/KinematicsOptimizer.cpp:61-77 | With a positive tolerance the first break test succeeds after one refresh. |
| Posture.UndefinedAtFirstPass | src/catkin/motion_planning/momentumopt/src/momentumopt/kinopt/KinematicsOptimizer.cpp:61-162 | With a tolerance that is not positive, a pass that stops at a fault ends the loop in the iteration that reached it. |
| Posture.RecoverStep | src/catkin/motion_planning/momentumopt/src/momentumopt/kinopt/KinematicsOptimizer.cpp:80-101 | A pass that throws is caught. The loop continues from the refreshed state with the blocks unchanged. |
| Posture.RecoversThroughout | src/catkin/motion_planning/momentumopt/src/momentumopt/kinopt/KinematicsOptimizer.cpp:61-101 | When every pass throws, the exception is caught each time. The loop then runs its whole budget, refreshing the state and leaving the blocks unchanged. |
| Posture.RunOutcome | src/catkin/motion_planning/momentumopt/src/momentumopt/kinopt/KinematicsOptimizer.cpp:56-256 | A run ends in one of four ways: no iteration, convergence at iteration 0, a fault at iteration 0, or every pass caught. |
| Posture.OptimizePosture | src/catkin/motion_planning/momentumopt/src/momentumopt/kinopt/KinematicsOptimizer.cpp:56-256 | `optimizePosture` ends as `RunOutcome` describes, from the state it was called with. |
| Posture.NeverSolves | src/catkin/motion_planning/momentumopt/src/momentumopt/kinopt/KinematicsOptimizer.cpp:56-256 | No pass of a run reaches the solver, so the blocks keep their guesses. |
| Posture.MomentumFlagUnobservable | src/catkin/motion_planning/momentumopt/src/momentumopt/kinopt/KinematicsOptimizer.cpp:56-119 | The `is_not_initial_state` flag changes the objective but never the outcome of a run. |
| Posture.Optimize | src/catkin/motion_planning/momentumopt/src/momentumopt/kinopt/KinematicsOptimizer.cpp:513-518 | `optimize` makes one posture run towards `ini_state` with the momentum terms off, and leaves the blocks as they were. When every block's type is handled, it records no step. It then ends without an iteration, converged at iteration 0, or at the `jnt_qd_` fault of iteration 0. |
| Posture.OptimizeInitialized | src/catkin/motion_planning/momentumopt/src/momentumopt/kinopt/KinematicsOptimizer.cpp:513-518 | From plain well-formed settings, states and provider, the run's context is well formed. On the blocks `initializeKinematicVariables` allocates, `optimize` then records no step. Which way it ends follows from the budget and the tolerance alone: with no budget it ends unrefreshed; with a positive tolerance it converges after one refresh; otherwise it stops at the `jnt_qd_` fault. |
| Posture.SetupValid | src/catkin/motion_planning/momentumopt/src/momentumopt/kinopt/KinematicsOptimizer.cpp:56-62 | The context `optimizePosture` sets up is well formed when the settings, the entry state and the target are, and when the provider keeps states well formed. It is well formed for any time step and mass. |

## Left out

- Floating point: every `double` is a Dafny `real`. `SolverSetting::inf` is a
  parameter of `InitializeVariables`. The previous error starts at the
  extended value `PosInf`.
- The convex solver and the kinematics provider are parameters.
  - `updateJacobians` is a function from state to state and matrices.
  - The centroidal momentum matrix and the end-effector Jacobians are opaque
    entry functions.
  - `model_.optimize()` is a function from the program to either an exception
    or an exit code and an assignment.
  - Neither is modelled further, and their numerics are out of scope.
- `initialize` (provider set-up, solver configuration files, the kinematics
  sequence) is left out. Of the modelled code, it calls only
  `initializeKinematicVariables`, which is modelled.
- Logging to standard output is left out, and so are all commented-out code
  and the solver's configuration.
- The model stops the build with a `Fault` at the first read of a block row
  past the block's row count, or of an entry past the end of `ActiveDofs`.
  The code does not show what either read yields. Which read the model
  reports first depends on this; that every build stops does not.
- C++ leaves the evaluation order of operands open. Where two reads on one
  line can both fail at the same dof, the model checks the one written first.
- The solver's exit code is kept in each step but not acted on. The source
  writes the solution back whatever the code says.
- `include_torque_limits` is not read by the modelled code, so it has no
  counterpart. `optimize` passes `is_not_first_kindyn_iteration` into it.
- Affine expressions are kept as the operator tree the source builds them
  with, not as the backend's normalised term list. Their meaning is stated
  through `Eval` and `Mentions`.
- `OptimizationVariable::id`, `getValues` and `setGuessValue` are not part of
  this model. Blocks have one column. `id(row, 0)` is taken to be
  `base + row` only for `row` below the block's row count.
- The `>` and `<` relations of `addLinConstr` are read as closed bounds (`>=`
  and `<=`).
- NumActiveDofs is taken to be the length of `ActiveDofs`.
- The number of end-effectors (`Problem::n_endeffs_`) is the length of the
  layout's end-effector block lists.
- Constraints.RowProduct: states where the loop stops and why, not the value
  of the expression it accumulates.
- Posture.Loop: does not state the layout's shape after the run. The callers
  obtain it from `Posture.Attempt`'s soundness contract.
- Posture.OptimizePosture: some runs must have a non-zero robot mass and,
  when `is_not_initial_state` is set, a non-zero time step (`Divisible`,
  required through `BuildReady`). These are the runs whose tolerance is not
  positive and whose every block is of a handled type. Only such runs build
  the objective and the constraints. Before the build stops, the source
  divides the time step by the mass in the center-of-mass integration. When
  the flag is set, it also divides by the time step in the momentum-rate
  terms. The source does both in IEEE doubles and reaches the same stop with
  inf or NaN coefficients. Real division by zero is undefined, so the model
  excludes those inputs. Every other run, including one whose declarations
  throw in every pass, is modelled for any time step and mass.
- Posture.RunOutcome: the same exclusion as `Posture.OptimizePosture`, on the
  same runs, through `BuildReady`.
- Posture.NeverSolves: the same exclusion as `Posture.OptimizePosture`, on the
  same runs, through `BuildReady`.
- Posture.MomentumFlagUnobservable: it compares a run with the flag set
  against one with it clear, so it excludes a zero robot mass and a zero time
  step on the same runs, for both.
- Posture.UndefinedAtFirstPass: the same exclusion as
  `Posture.OptimizePosture`, through `BuildReady`.
- Posture.Loop: the same exclusion as `Posture.OptimizePosture`, through
  `BuildReady`.
- Posture.Optimize: the momentum terms are off, so only a zero robot mass is
  excluded, on the runs whose tolerance is not positive and whose every block
  is handled. Any time step is modelled.
- Posture.OptimizeInitialized: requires a non-zero robot mass when the
  tolerance is not positive, for the same reason. Any time step is modelled.

=== FILE: common.dfy ===
/** Small value types shared by the whole model of the posture optimiser. */
module Common {

  /** A value that may be absent. */
  datatype Option<+T> = None | Some(value: T)

  /** A computation that either yields a value or stops with an error; usable with `:-`. */
  datatype Result<+T, +E> = Success(value: T) | Failure(error: E) {

    predicate IsFailure() {
      Failure?
    }

    function PropagateFailure<U>(): Result<U, E>
      requires Failure?
    {
      Failure(error)
    }

    function Extract(): T
      requires Success?
    {
      value
    }
  }

  /** A fixed-size 3-vector (an `Eigen::Vector3d`), indexed by axis 0, 1, 2. */
  datatype Vec3 = Vec3(x: real, y: real, z: real) {

    function At(axis: nat): real
      requires axis < 3
    {
      if axis == 0 then x else if axis == 1 then y else z
    }
  }

  /** The first column of a 3-row matrix, read back as a vector. */
  function FromColumn(s: seq<real>): (v: Vec3)
    requires |s| == 3
    ensures forall axis :: 0 <= axis < 3 ==> v.At(axis) == s[axis]
  {
    Vec3(s[0], s[1], s[2])
  }

  /** A real number or the solver's +infinity sentinel. */
  datatype Extended = Finite(v: real) | PosInf

  function Max(a: int, b: int): int {
    if a < b then b else a
  }

  function Abs(r: real): real {
    if r < 0.0 then -r else r
  }

  /** C++ conversion of a double to `int`: truncation toward zero. */
  function Truncate(r: real): (t: int)
    ensures 0.0 <= r ==> 0 <= t && t as real <= r < t as real + 1.0
    ensures r < 0.0 ==> t <= 0 && t as real - 1.0 < r <= t as real
  {
    if 0.0 <= r then r.Floor else -((-r).Floor)
  }
}

=== FILE: constraints.dfy ===
/**
 * The constraints of the posture QP (lines 151-227 of `optimizePosture`), in
 * the order the source adds them, up to the first lookup outside a block or
 * outside ActiveDofs.
 */
module Constraints {
  import opened Common
  import opened Variables
  import opened Linear
  import opened Robot
  import opened Problem
  import Objective

  /**
   * Where the loop `for dof in dof .. NumActiveDofs+5` over the rows of `blk`
   * first reads out of range: the row lookup meets row `blk.rows`, the column
   * lookup `ActiveDofs[dof]` (from dof 6 on) meets index NumActiveDofs. At the
   * same dof the row is looked up first.
   */
  function FirstFault(blk: Block, n: nat, dof: nat): Fault {
    var rowAt := Max(dof, blk.rows);
    var adAt := Max(Max(dof, 6), n);
    if rowAt <= adAt then RowOutOfRange(blk.tag, rowAt) else ActiveDofOutOfRange(adAt)
  }

  /**
   * `lin_cons_ += LinExpr(vars_[blk.id(dof,0)], M(row, col))` for every dof
   * from `dof` to NumActiveDofs+5, where `col` is `dof` below 6 and
   * `6 + ActiveDofs[dof]` from 6 on.
   */
  function RowProduct(acc: LinExpr, blk: Block, m: (nat, nat) -> real, row: nat, cfg: Setting, dof: nat): (r: Result<LinExpr, Fault>)
    ensures r.Success? <==> dof >= |cfg.activeDofs| + 6 || (|cfg.activeDofs| == 0 && blk.rows >= 6)
    ensures r.Failure? ==> r.error == FirstFault(blk, |cfg.activeDofs|, dof)
    decreases |cfg.activeDofs| + 6 - dof
  {
    if dof >= |cfg.activeDofs| + 6 then Success(acc)
    else
      var k :- Lookup(blk, dof);
      var col :- if dof < 6 then Success(dof) else (var a :- ActiveDof(cfg, dof); Success(6 + a));
      RowProduct(Plus(acc, Scaled(k, m(row, col))), blk, m, row, cfg, dof + 1)
  }

  /** What the axis loop needs: the sizes, and the mass the time step is divided by. */
  predicate Integrable(p: Snapshot) {
    Shaped(p) && p.cfg.mass != 0.0
  }

  /** Center-of-mass integration: com - current com - (dt / mass) comd = 0. */
  function ComIntegration(p: Snapshot, axis: nat): Constr
    requires Integrable(p) && axis < 3
  {
    var L := p.layout;
    Constr(Minus(Minus(Var(Id(L.com, axis)), Const(p.current.com.At(axis))), Scaled(Id(L.comd, axis), Dt(p) / p.cfg.mass)), Eq, 0.0)
  }

  /** `target[axis]` equals row `row` of `M` times the variables of `source`. */
  function MomentumRow(p: Snapshot, target: Block, source: Block, m: (nat, nat) -> real, row: nat, axis: nat): Emission
    requires axis < target.rows
  {
    EmitZero(RowProduct(Scaled(Id(target, axis), -1.0), source, m, row, p.cfg, 0))
  }

  /** End-effector integration: position - current position - dt velocity = 0. */
  function EffectorIntegration(p: Snapshot, axis: nat, eff: nat): Constr
    requires Shaped(p) && axis < 3 && eff < NumEffs(p)
  {
    var L := p.layout;
    Constr(Minus(Minus(Var(Id(L.eefPos[eff], axis)), Const(p.current.eefPos[eff].At(axis))), Scaled(Id(L.eefVel[eff], axis), Dt(p))), Eq, 0.0)
  }

  /** The hard tracking constraint of an active end-effector; nothing for an inactive one. */
  function PinFor(p: Snapshot, axis: nat, eff: nat): (r: Emission)
    requires Shaped(p) && axis < 3 && eff < NumEffs(p)
    ensures r.fault.None?
  {
    if p.desired.eefActive[eff] then
      Emit(Constr(Minus(Const(p.desired.eefPos[eff].At(axis)), Var(Id(p.layout.eefPos[eff], axis))), Eq, 0.0))
    else Nothing()
  }

  function Effector(p: Snapshot, axis: nat, eff: nat): Emission
    requires Shaped(p) && axis < 3 && eff < NumEffs(p)
  {
    var L := p.layout;
    var jac := (r: nat, c: nat) => p.jac.eef(eff, r, c);
    Then(Emit(EffectorIntegration(p, axis, eff)),
    Then(MomentumRow(p, L.eefVel[eff], L.jntQd, jac, axis, axis),
         PinFor(p, axis, eff)))
  }

  /** The end-effector loop of one axis, over all `n_endeffs_` effectors from `eff` on. */
  function Effectors(p: Snapshot, axis: nat, eff: nat): Emission
    requires Shaped(p) && axis < 3
    decreases NumEffs(p) - eff
  {
    if eff >= NumEffs(p) then Nothing() else Then(Effector(p, axis, eff), Effectors(p, axis, eff + 1))
  }

  /** One pass of the axis loop: com integration, the three momentum rows, the effectors. */
  function AxisConstraints(p: Snapshot, axis: nat): Emission
    requires Integrable(p) && axis < 3
  {
    var L := p.layout;
    Then(Emit(ComIntegration(p, axis)),
    Then(MomentumRow(p, L.comd, L.jntQd, p.jac.cmm, axis, axis),
    Then(MomentumRow(p, L.lmom, L.totalQd, p.jac.cmm, axis, axis),
    Then(MomentumRow(p, L.amom, L.totalQd, p.jac.cmm, 3 + axis, axis),
         Effectors(p, axis, 0)))))
  }

  function AxesConstraints(p: Snapshot, axis: nat): Emission
    requires Integrable(p) && axis <= 3
    decreases 3 - axis
  {
    if axis == 3 then Nothing() else Then(AxisConstraints(p, axis), AxesConstraints(p, axis + 1))
  }

  /**
   * jnt_q[dof] - (current joint position + dt jnt_qd[dof + 6]). Once the
   * jnt_q row exists, so does ActiveDofs[dof].
   */
  function JointPositionExpr(p: Snapshot, dof: nat): (r: Result<LinExpr, Fault>)
    requires Valid(p)
    ensures r.Success? <==> dof + 6 < Dofs(p)
    ensures r.Failure? ==> r.error == if dof < Dofs(p) then RowOutOfRange(JointVelocity, dof + 6) else RowOutOfRange(JointPosition, dof)
  {
    var L := p.layout;
    var q :- Lookup(L.jntQ, dof);
    var ad := p.cfg.activeDofs[dof];
    var qd :- Lookup(L.jntQd, dof + 6);
    Success(Minus(Var(q), Plus(Const(p.current.jointPositions[ad]), Scaled(qd, Dt(p)))))
  }

  function JointPositions(p: Snapshot, dof: nat): Emission
    requires Valid(p)
    decreases Dofs(p) - dof
  {
    if dof >= Dofs(p) then Nothing() else Then(EmitZero(JointPositionExpr(p, dof)), JointPositions(p, dof + 1))
  }

  /** total_qd[dof] - jnt_q[dof] / dt; jnt_q has as many rows as total_qd. */
  function VelocityExpr(p: Snapshot, dof: nat): (r: Result<LinExpr, Fault>)
    requires Valid(p)
    ensures r.Success? <==> dof < Dofs(p)
    ensures r.Failure? ==> r.error == RowOutOfRange(TotalVelocity, dof)
  {
    var v :- Lookup(p.layout.totalQd, dof);
    var q := Id(p.layout.jntQ, dof);
    Success(Minus(Var(v), Scaled(q, 1.0 / Dt(p))))
  }

  /** The dofs whose branch of the velocity loop leaves `lin_cons_` as it was. */
  predicate Unassigned(dof: nat) {
    0 < dof < 3 || 3 < dof < 6
  }

  /**
   * The velocity loop from `dof` on; `last` is what `lin_cons_` holds on entry.
   * An unassigned dof adds `last` again.
   */
  function JointVelocities(p: Snapshot, dof: nat, last: LinExpr): Emission
    requires Valid(p)
    decreases Dofs(p) + 6 - dof
  {
    if dof >= Dofs(p) + 6 then Nothing()
    else if Unassigned(dof) then Then(Emit(Constr(last, Eq, 0.0)), JointVelocities(p, dof + 1, last))
    else match VelocityExpr(p, dof)
      case Failure(f) => Emission([], Some(f))
      case Success(e) => Then(Emit(Constr(e, Eq, 0.0)), JointVelocities(p, dof + 1, e))
  }

  /** The velocity at the start state the acceleration of `dof` is taken from. */
  function PreviousVelocity(p: Snapshot, dof: nat): real
    requires Valid(p) && dof < Dofs(p) + 6
  {
    if dof < 6 then p.start.genVelocities[dof] else p.start.jointVelocities[p.cfg.activeDofs[dof - 6]]
  }

  /**
   * total_qdd[dof] - (total_qd[dof] / dt - previous velocity / dt). The blocks
   * read after total_qdd have as many rows, so only its lookup can fail.
   */
  function AccelerationExpr(p: Snapshot, dof: nat): (r: Result<LinExpr, Fault>)
    requires Valid(p)
    ensures r.Success? <==> dof < Dofs(p)
    ensures r.Failure? ==> r.error == RowOutOfRange(TotalAcceleration, dof)
  {
    var a :- Lookup(p.layout.totalQdd, dof);
    var v := Id(p.layout.totalQd, dof);
    Success(Minus(Var(a), Minus(Scaled(v, 1.0 / Dt(p)), Const(PreviousVelocity(p, dof) / Dt(p)))))
  }

  function JointAccelerations(p: Snapshot, dof: nat): Emission
    requires Valid(p)
    decreases Dofs(p) + 6 - dof
  {
    if dof >= Dofs(p) + 6 then Nothing() else Then(EmitZero(AccelerationExpr(p, dof)), JointAccelerations(p, dof + 1))
  }

  /** jnt_q[dof] >= MinJointAngles[ActiveDofs[dof]] and jnt_q[dof] <= MaxJointAngles[ActiveDofs[dof]]. */
  function LimitPair(p: Snapshot, dof: nat): (r: Result<seq<Constr>, Fault>)
    requires Valid(p)
    ensures r.Success? <==> dof < Dofs(p)
  {
    var q :- Lookup(p.layout.jntQ, dof);
    var ad := p.cfg.activeDofs[dof];
    Success([Constr(Var(q), Gt, p.cfg.minAngles[ad]), Constr(Var(q), Lt, p.cfg.maxAngles[ad])])
  }

  function JointLimits(p: Snapshot, dof: nat): Emission
    requires Valid(p)
    decreases Dofs(p) - dof
  {
    if dof >= Dofs(p) then Nothing()
    else
      var here := match LimitPair(p, dof)
        case Success(cs) => Emission(cs, None)
        case Failure(f) => Emission([], Some(f));
      Then(here, JointLimits(p, dof + 1))
  }

  /**
   * All constraints, in source order. What `lin_cons_` holds before the
   * velocity loop does not matter (`VelocityLoopIgnoresEntry`).
   */
  function ConstraintList(p: Snapshot): Emission
    requires Integrable(p)
  {
    AxesStop(p);
    ThenIfReached(AxesConstraints(p, 0), () requires Valid(p) => JointConstraints(p))
  }

  /** The loops after the axis loop: joint integration, velocities, accelerations, limits. */
  function JointConstraints(p: Snapshot): Emission
    requires Valid(p)
  {
    Then(JointPositions(p, 0),
    Then(JointVelocities(p, 0, Const(0.0)),
    Then(JointAccelerations(p, 0),
         JointLimits(p, 0))))
  }

  /**
   * The momentum rows loop to NumActiveDofs+5 over blocks of NumActiveDofs
   * rows: every pass of the axis loop stops at row NumActiveDofs of jnt_qd,
   * after the center-of-mass integration constraint.
   */
  lemma AxisStops(p: Snapshot, axis: nat)
    requires Integrable(p) && axis < 3
    ensures AxisConstraints(p, axis) == Emission([ComIntegration(p, axis)], Some(RowOutOfRange(JointVelocity, Dofs(p))))
  {
    var L := p.layout;
    var rate := RowProduct(Scaled(Id(L.comd, axis), -1.0), L.jntQd, p.jac.cmm, axis, p.cfg, 0);
    assert rate.Failure? && rate.error == RowOutOfRange(JointVelocity, Dofs(p));
  }

  /**
   * The com-rate row stops whatever `id` yields past a block's last row. Were
   * every jnt_qd row the loop reads to resolve to `base + row`, the row would
   * still read ActiveDofs past its end, at dof max(6, NumActiveDofs); with no
   * active dof, its first read, `jnt_qd_` row 0, resolves to `num_vars_`, one
   * past the end of the flat vector.
   */
  lemma RateRowStopsWhateverId(p: Snapshot, axis: nat)
    requires Shaped(p) && axis < 3
    ensures Dofs(p) > 0 ==>
              var wide := p.layout.jntQd.(rows := Dofs(p) + 6);
              RowProduct(Scaled(Id(p.layout.comd, axis), -1.0), wide, p.jac.cmm, axis, p.cfg, 0)
                == Failure(ActiveDofOutOfRange(Max(6, Dofs(p))))
    ensures Dofs(p) == 0 ==> p.layout.jntQd.base + 0 == p.layout.numVars
  {
  }

  /** The axis loop never finishes, so the joint loops after it are never reached. */
  lemma AxesStop(p: Snapshot)
    requires Integrable(p)
    ensures AxesConstraints(p, 0) == Emission([ComIntegration(p, 0)], Some(RowOutOfRange(JointVelocity, Dofs(p))))
  {
    AxisStops(p, 0);
  }

  /** The whole build stops in the first pass of the axis loop, having added one constraint. */
  lemma BuildStops(p: Snapshot)
    requires Integrable(p)
    ensures ConstraintList(p) == Emission([ComIntegration(p, 0)], Some(RowOutOfRange(JointVelocity, Dofs(p))))
  {
    AxesStop(p);
  }

  /** The dof whose velocity constraint an unassigned dof adds again. */
  function Owner(dof: nat): nat {
    if 0 < dof < 3 then 0 else if 3 < dof < 6 then 3 else dof
  }

  /** The first dof of the velocity loop whose branch reads a row past NumActiveDofs. */
  function VelocityStop(n: nat): nat {
    if n == 0 then 0 else if n <= 3 then 3 else if n <= 6 then 6 else n
  }

  /** The constraint the velocity loop adds at `dof`: that of dof `Owner(dof)`. */
  function ReusedVelocity(p: Snapshot, dof: nat): Constr
    requires Valid(p) && Owner(dof) < Dofs(p)
  {
    var o := Owner(dof);
    Constr(Minus(Var(Id(p.layout.totalQd, o)), Scaled(Id(p.layout.jntQ, o), 1.0 / Dt(p))), Eq, 0.0)
  }

  /** `c` is the constraint the velocity loop adds at dof `dof`. */
  ghost predicate ReusedAt(p: Snapshot, c: Constr, dof: nat)
    requires Valid(p)
  {
    Owner(dof) < Dofs(p) && c == ReusedVelocity(p, dof)
  }

  /** Constraint `i` of `out` is the one the velocity loop adds at dof `dof + i`. */
  ghost predicate ReusedFrom(p: Snapshot, out: seq<Constr>, dof: nat)
    requires Valid(p)
  {
    forall i :: 0 <= i < |out| ==> ReusedAt(p, out[i], dof + i)
  }

  lemma ReusedCons(p: Snapshot, out: seq<Constr>, dof: nat)
    requires Valid(p) && Owner(dof) < Dofs(p) && ReusedFrom(p, out, dof + 1)
    ensures ReusedFrom(p, [ReusedVelocity(p, dof)] + out, dof)
  {
    var r := [ReusedVelocity(p, dof)] + out;
    forall i | 0 <= i < |r| ensures ReusedAt(p, r[i], dof + i) {
      if i > 0 {
        assert r[i] == out[i - 1];
        assert ReusedAt(p, out[i - 1], dof + 1 + (i - 1));
        assert dof + 1 + (i - 1) == dof + i;
      }
    }
  }

  /** One pass of the velocity loop before its stop: the dof's constraint, then the rest. */
  lemma VelocityStep(p: Snapshot, dof: nat, last: LinExpr) returns (next: LinExpr)
    requires Valid(p) && dof < VelocityStop(Dofs(p))
    requires Unassigned(dof) ==> Owner(dof) < Dofs(p) && Constr(last, Eq, 0.0) == ReusedVelocity(p, dof)
    ensures Owner(dof) < Dofs(p)
    ensures Unassigned(dof + 1) ==> Owner(dof + 1) < Dofs(p) && Constr(next, Eq, 0.0) == ReusedVelocity(p, dof + 1)
    ensures JointVelocities(p, dof, last) == Then(Emit(ReusedVelocity(p, dof)), JointVelocities(p, dof + 1, next))
  {
    next := if Unassigned(dof) then last else VelocityExpr(p, dof).value;
    assert Constr(next, Eq, 0.0) == ReusedVelocity(p, dof);
    assert Unassigned(dof + 1) ==> Owner(dof + 1) == Owner(dof);
  }

  lemma {:induction false} VelocityFrom(p: Snapshot, dof: nat, last: LinExpr)
    requires Valid(p) && dof <= VelocityStop(Dofs(p))
    requires Unassigned(dof) ==> Owner(dof) < Dofs(p) && Constr(last, Eq, 0.0) == ReusedVelocity(p, dof)
    ensures var r, stop := JointVelocities(p, dof, last), VelocityStop(Dofs(p));
            && r.fault == Some(RowOutOfRange(TotalVelocity, stop))
            && |r.out| == stop - dof
            && ReusedFrom(p, r.out, dof)
    decreases Dofs(p) + 6 - dof
  {
    if dof == VelocityStop(Dofs(p)) {
      assert !Unassigned(dof);
      assert VelocityExpr(p, dof).Failure?;
    } else {
      var next := VelocityStep(p, dof, last);
      VelocityFrom(p, dof + 1, next);
      ReusedCons(p, JointVelocities(p, dof + 1, next).out, dof);
    }
  }

  /**
   * The velocity loop adds, for dof 0, 1, 2, the constraint of dof 0; for 3,
   * 4, 5, that of dof 3; from 6 on, each dof's own; and stops at the first
   * assigned dof past NumActiveDofs, whatever `lin_cons_` held on entry.
   */
  lemma VelocityLoop(p: Snapshot, last: LinExpr)
    requires Valid(p)
    ensures var r, stop := JointVelocities(p, 0, last), VelocityStop(Dofs(p));
            && r.fault == Some(RowOutOfRange(TotalVelocity, stop))
            && |r.out| == stop
            && forall d :: 0 <= d < stop ==> Owner(d) < Dofs(p) && r.out[d] == ReusedVelocity(p, d)
  {
    VelocityFrom(p, 0, last);
    var r := JointVelocities(p, 0, last);
    assert ReusedFrom(p, r.out, 0);
    forall d | 0 <= d < VelocityStop(Dofs(p)) ensures Owner(d) < Dofs(p) && r.out[d] == ReusedVelocity(p, d) {
      assert ReusedAt(p, r.out[d], 0 + d);
    }
  }

  /** What `lin_cons_` holds before the velocity loop is never added: dof 0 assigns it first. */
  lemma VelocityLoopIgnoresEntry(p: Snapshot, a: LinExpr, b: LinExpr)
    requires Valid(p)
    ensures JointVelocities(p, 0, a) == JointVelocities(p, 0, b)
  {
    VelocityLoop(p, a);
    VelocityLoop(p, b);
    var ra, rb := JointVelocities(p, 0, a), JointVelocities(p, 0, b);
    assert ra.out == rb.out;
  }

  /** Joint position `dof` integrates the velocity variable six rows further down. */
  function PositionIntegration(p: Snapshot, dof: nat): Constr
    requires Valid(p) && dof + 6 < Dofs(p)
  {
    var L := p.layout;
    Constr(Minus(Var(Id(L.jntQ, dof)), Plus(Const(p.current.jointPositions[p.cfg.activeDofs[dof]]), Scaled(Id(L.jntQd, dof + 6), Dt(p)))), Eq, 0.0)
  }

  /** The number of dofs the joint-position loop completes before it stops. */
  function PositionStop(n: nat): nat {
    if n <= 6 then 0 else n - 6
  }

  /** `c` is the integration constraint of dof `dof`. */
  ghost predicate IntegratedAt(p: Snapshot, c: Constr, dof: nat)
    requires Valid(p)
  {
    dof + 6 < Dofs(p) && c == PositionIntegration(p, dof)
  }

  /** Constraint `i` of `out` is the integration constraint of dof `dof + i`. */
  ghost predicate IntegratedFrom(p: Snapshot, out: seq<Constr>, dof: nat)
    requires Valid(p)
  {
    forall i :: 0 <= i < |out| ==> IntegratedAt(p, out[i], dof + i)
  }

  lemma IntegratedCons(p: Snapshot, out: seq<Constr>, dof: nat)
    requires Valid(p) && dof + 6 < Dofs(p) && IntegratedFrom(p, out, dof + 1)
    ensures IntegratedFrom(p, [PositionIntegration(p, dof)] + out, dof)
  {
    var r := [PositionIntegration(p, dof)] + out;
    forall i | 0 <= i < |r| ensures IntegratedAt(p, r[i], dof + i) {
      if i > 0 {
        assert r[i] == out[i - 1];
        assert IntegratedAt(p, out[i - 1], dof + 1 + (i - 1));
        assert dof + 1 + (i - 1) == dof + i;
      }
    }
  }

  lemma {:induction false} PositionsFrom(p: Snapshot, dof: nat)
    requires Valid(p) && 0 < Dofs(p) && dof <= PositionStop(Dofs(p))
    ensures var r, stop := JointPositions(p, dof), PositionStop(Dofs(p));
            && r.fault == Some(RowOutOfRange(JointVelocity, Max(6, Dofs(p))))
            && |r.out| == stop - dof
            && IntegratedFrom(p, r.out, dof)
    decreases Dofs(p) - dof
  {
    if dof < PositionStop(Dofs(p)) {
      PositionsFrom(p, dof + 1);
      assert JointPositions(p, dof).out == [PositionIntegration(p, dof)] + JointPositions(p, dof + 1).out;
      IntegratedCons(p, JointPositions(p, dof + 1).out, dof);
    } else {
      assert JointPositionExpr(p, dof).Failure?;
    }
  }

  /**
   * The joint-position loop adds the integration constraint of the dofs below
   * NumActiveDofs-6 and then stops at row max(6, NumActiveDofs) of jnt_qd;
   * with no active dofs it adds nothing.
   */
  lemma PositionLoop(p: Snapshot)
    requires Valid(p)
    ensures var r, stop := JointPositions(p, 0), PositionStop(Dofs(p));
            && (Dofs(p) == 0 ==> r == Nothing())
            && (Dofs(p) > 0 ==> r.fault == Some(RowOutOfRange(JointVelocity, Max(6, Dofs(p)))))
            && |r.out| == stop
            && forall d :: 0 <= d < stop ==> d + 6 < Dofs(p) && r.out[d] == PositionIntegration(p, d)
  {
    if Dofs(p) > 0 {
      PositionsFrom(p, 0);
      var r := JointPositions(p, 0);
      forall d | 0 <= d < PositionStop(Dofs(p)) ensures d + 6 < Dofs(p) && r.out[d] == PositionIntegration(p, d) {
        assert IntegratedAt(p, r.out[d], 0 + d);
      }
    }
  }

  /** total_qdd[dof] is the finite difference of total_qd[dof] and the start velocity. */
  function AccelerationDefinition(p: Snapshot, dof: nat): Constr
    requires Valid(p) && dof < Dofs(p)
  {
    var L := p.layout;
    Constr(Minus(Var(Id(L.totalQdd, dof)), Minus(Scaled(Id(L.totalQd, dof), 1.0 / Dt(p)), Const(PreviousVelocity(p, dof) / Dt(p)))), Eq, 0.0)
  }

  /** `c` defines the acceleration of dof `dof`. */
  ghost predicate DefinedAt(p: Snapshot, c: Constr, dof: nat)
    requires Valid(p)
  {
    dof < Dofs(p) && c == AccelerationDefinition(p, dof)
  }

  /** Constraint `i` of `out` defines the acceleration of dof `dof + i`. */
  ghost predicate DefinedFrom(p: Snapshot, out: seq<Constr>, dof: nat)
    requires Valid(p)
  {
    forall i :: 0 <= i < |out| ==> DefinedAt(p, out[i], dof + i)
  }

  lemma DefinedCons(p: Snapshot, out: seq<Constr>, dof: nat)
    requires Valid(p) && dof < Dofs(p) && DefinedFrom(p, out, dof + 1)
    ensures DefinedFrom(p, [AccelerationDefinition(p, dof)] + out, dof)
  {
    var r := [AccelerationDefinition(p, dof)] + out;
    forall i | 0 <= i < |r| ensures DefinedAt(p, r[i], dof + i) {
      if i > 0 {
        assert r[i] == out[i - 1];
        assert DefinedAt(p, out[i - 1], dof + 1 + (i - 1));
        assert dof + 1 + (i - 1) == dof + i;
      }
    }
  }

  lemma {:induction false} AccelerationsFrom(p: Snapshot, dof: nat)
    requires Valid(p) && dof <= Dofs(p)
    ensures var r := JointAccelerations(p, dof);
            && r.fault == Some(RowOutOfRange(TotalAcceleration, Dofs(p)))
            && |r.out| == Dofs(p) - dof
            && DefinedFrom(p, r.out, dof)
    decreases Dofs(p) - dof
  {
    if dof < Dofs(p) {
      AccelerationsFrom(p, dof + 1);
      assert JointAccelerations(p, dof).out == [AccelerationDefinition(p, dof)] + JointAccelerations(p, dof + 1).out;
      DefinedCons(p, JointAccelerations(p, dof + 1).out, dof);
    } else {
      assert AccelerationExpr(p, dof).Failure?;
    }
  }

  /** The acceleration loop defines every active dof's acceleration, then stops at row NumActiveDofs of total_qdd. */
  lemma AccelerationLoop(p: Snapshot)
    requires Valid(p)
    ensures var r := JointAccelerations(p, 0);
            && r.fault == Some(RowOutOfRange(TotalAcceleration, Dofs(p)))
            && |r.out| == Dofs(p)
            && forall d :: 0 <= d < Dofs(p) ==> r.out[d] == AccelerationDefinition(p, d)
  {
    AccelerationsFrom(p, 0);
    var r := JointAccelerations(p, 0);
    forall d | 0 <= d < Dofs(p) ensures r.out[d] == AccelerationDefinition(p, d) {
      assert DefinedAt(p, r.out[d], 0 + d);
    }
  }

  /** Every active dof's joint position lies within the configured limits of its joint. */
  predicate WithinLimits(p: Snapshot, x: nat -> real, dof: nat)
    requires Valid(p)
  {
    forall d :: dof <= d < Dofs(p) ==>
      p.cfg.minAngles[p.cfg.activeDofs[d]] <= x(Id(p.layout.jntQ, d)) <= p.cfg.maxAngles[p.cfg.activeDofs[d]]
  }

  predicate AllHold(cs: seq<Constr>, x: nat -> real) {
    forall i :: 0 <= i < |cs| ==> Holds(cs[i], x)
  }

  lemma {:induction false} AllHoldAppend(a: seq<Constr>, b: seq<Constr>, x: nat -> real)
    ensures AllHold(a + b, x) <==> AllHold(a, x) && AllHold(b, x)
  {
    if AllHold(a, x) && AllHold(b, x) {
      forall i | 0 <= i < |a + b| ensures Holds((a + b)[i], x) {
        if i >= |a| {
          assert (a + b)[i] == b[i - |a|];
        } else {
          assert (a + b)[i] == a[i];
        }
      }
    }
    if AllHold(a + b, x) {
      forall i | 0 <= i < |b| ensures Holds(b[i], x) {
        assert (a + b)[i + |a|] == b[i];
      }
      forall i | 0 <= i < |a| ensures Holds(a[i], x) {
        assert (a + b)[i] == a[i];
      }
    }
  }

  /** The two inequalities of one dof hold exactly when its joint lies within its limits. */
  lemma LimitPairHolds(p: Snapshot, dof: nat, x: nat -> real)
    requires Valid(p) && dof < Dofs(p)
    ensures |LimitPair(p, dof).value| == 2
    ensures AllHold(LimitPair(p, dof).value, x) <==>
              p.cfg.minAngles[p.cfg.activeDofs[dof]] <= x(Id(p.layout.jntQ, dof)) <= p.cfg.maxAngles[p.cfg.activeDofs[dof]]
  {
    var pair := LimitPair(p, dof).value;
    EvalAtoms(0.0, Id(p.layout.jntQ, dof), 0.0, x);
    assert AllHold(pair, x) <==> Holds(pair[0], x) && Holds(pair[1], x);
  }

  lemma WithinLimitsStep(p: Snapshot, x: nat -> real, dof: nat)
    requires Valid(p) && dof < Dofs(p)
    ensures WithinLimits(p, x, dof) <==>
              && p.cfg.minAngles[p.cfg.activeDofs[dof]] <= x(Id(p.layout.jntQ, dof)) <= p.cfg.maxAngles[p.cfg.activeDofs[dof]]
              && WithinLimits(p, x, dof + 1)
  {
  }

  /** One pass of the joint-limit loop below NumActiveDofs: the dof's pair, then the rest. */
  lemma LimitStep(p: Snapshot, dof: nat)
    requires Valid(p) && dof < Dofs(p)
    ensures JointLimits(p, dof).out == LimitPair(p, dof).value + JointLimits(p, dof + 1).out
    ensures JointLimits(p, dof).fault == JointLimits(p, dof + 1).fault
  {
  }

  /**
   * The joint-limit loop never stops early, adds two inequalities per active
   * dof, and they hold exactly when every active joint is within its limits.
   */
  lemma {:induction false} LimitsFrom(p: Snapshot, dof: nat, x: nat -> real)
    requires Valid(p) && dof <= Dofs(p)
    ensures JointLimits(p, dof).fault.None?
    ensures |JointLimits(p, dof).out| == 2 * (Dofs(p) - dof)
    ensures AllHold(JointLimits(p, dof).out, x) <==> WithinLimits(p, x, dof)
    decreases Dofs(p) - dof
  {
    if dof < Dofs(p) {
      LimitsFrom(p, dof + 1, x);
      var pair := LimitPair(p, dof).value;
      var rest := JointLimits(p, dof + 1).out;
      LimitStep(p, dof);
      AllHoldAppend(pair, rest, x);
      LimitPairHolds(p, dof, x);
      WithinLimitsStep(p, x, dof);
    } else {
      assert JointLimits(p, dof) == Nothing();
    }
  }

  lemma LimitLoop(p: Snapshot, x: nat -> real)
    requires Valid(p)
    ensures JointLimits(p, 0).fault.None?
    ensures |JointLimits(p, 0).out| == 2 * Dofs(p)
    ensures AllHold(JointLimits(p, 0).out, x) <==> WithinLimits(p, x, 0)
  {
    LimitsFrom(p, 0, x);
  }

  /**
   * Soft and hard tracking of an end-effector position are exclusive: the
   * objective weighs the row iff the effector is below NumActiveEndeffectors
   * and inactive, the pin is added iff it is active; below
   * NumActiveEndeffectors exactly one of the two applies.
   */
  lemma SoftOrPinned(p: Snapshot, axis: nat, eff: nat)
    requires Objective.Weighable(p) && axis < 3 && eff < NumEffs(p)
    ensures var soft := Objective.Touches(Objective.ObjectiveTerms(p), Id(p.layout.eefPos[eff], axis));
            var pinned := PinFor(p, axis, eff).out != [];
            && (pinned <==> p.desired.eefActive[eff])
            && !(soft && pinned)
            && (eff < p.cfg.numActiveEffs ==> soft || pinned)
  {
    Objective.SoftTracked(p, axis, eff);
  }

  /** The center-of-mass integration: com = current com + (dt / mass) comd. */
  lemma ComIntegrationMeaning(p: Snapshot, axis: nat, x: nat -> real)
    requires Integrable(p) && axis < 3
    ensures Holds(ComIntegration(p, axis), x) <==>
              x(Id(p.layout.com, axis)) == p.current.com.At(axis) + Dt(p) / p.cfg.mass * x(Id(p.layout.comd, axis))
  {
    var c, cd := Id(p.layout.com, axis), Id(p.layout.comd, axis);
    var k := Dt(p) / p.cfg.mass;
    EvalAlgebra(Minus(Var(c), Const(p.current.com.At(axis))), Scaled(cd, k), x);
    EvalAlgebra(Var(c), Const(p.current.com.At(axis)), x);
    EvalAtoms(p.current.com.At(axis), c, 1.0, x);
    EvalAtoms(0.0, cd, k, x);
  }

  /** The end-effector integration: position = current position + dt velocity. */
  lemma EffectorIntegrationMeaning(p: Snapshot, axis: nat, eff: nat, x: nat -> real)
    requires Shaped(p) && axis < 3 && eff < NumEffs(p)
    ensures Holds(EffectorIntegration(p, axis, eff), x) <==>
              x(Id(p.layout.eefPos[eff], axis)) == p.current.eefPos[eff].At(axis) + Dt(p) * x(Id(p.layout.eefVel[eff], axis))
  {
    var ps, v := Id(p.layout.eefPos[eff], axis), Id(p.layout.eefVel[eff], axis);
    var c := p.current.eefPos[eff].At(axis);
    EvalAlgebra(Minus(Var(ps), Const(c)), Scaled(v, Dt(p)), x);
    EvalAlgebra(Var(ps), Const(c), x);
    EvalAtoms(c, ps, 1.0, x);
    EvalAtoms(0.0, v, Dt(p), x);
  }

  /** The pin of an active effector: its position equals the desired one. */
  lemma PinMeaning(p: Snapshot, axis: nat, eff: nat, x: nat -> real)
    requires Shaped(p) && axis < 3 && eff < NumEffs(p) && p.desired.eefActive[eff]
    ensures AllHold(PinFor(p, axis, eff).out, x) <==> x(Id(p.layout.eefPos[eff], axis)) == p.desired.eefPos[eff].At(axis)
  {
    var ps := Id(p.layout.eefPos[eff], axis);
    var d := p.desired.eefPos[eff].At(axis);
    EvalAlgebra(Const(d), Var(ps), x);
    EvalAtoms(d, ps, 1.0, x);
    var pin := PinFor(p, axis, eff).out;
    assert |pin| == 1 && pin[0] == Constr(Minus(Const(d), Var(ps)), Eq, 0.0);
    assert AllHold(pin, x) <==> Holds(pin[0], x);
  }

  /** The velocity constraint at `dof`: total_qd of its owner equals the owner's jnt_q over dt. */
  lemma ReusedVelocityMeaning(p: Snapshot, dof: nat, x: nat -> real)
    requires Valid(p) && Owner(dof) < Dofs(p)
    ensures Holds(ReusedVelocity(p, dof), x) <==>
              x(Id(p.layout.totalQd, Owner(dof))) == x(Id(p.layout.jntQ, Owner(dof))) / Dt(p)
  {
    var v, q := Id(p.layout.totalQd, Owner(dof)), Id(p.layout.jntQ, Owner(dof));
    EvalAlgebra(Var(v), Scaled(q, 1.0 / Dt(p)), x);
    EvalAtoms(0.0, v, 1.0, x);
    EvalAtoms(0.0, q, 1.0 / Dt(p), x);
    assert (1.0 / Dt(p)) * x(q) == x(q) / Dt(p);
  }

  /**
   * The position constraint of `dof`: jnt_q[dof] = current position of joint
   * ActiveDofs[dof] + dt jnt_qd[dof + 6].
   */
  lemma PositionIntegrationMeaning(p: Snapshot, dof: nat, x: nat -> real)
    requires Valid(p) && dof + 6 < Dofs(p)
    ensures Holds(PositionIntegration(p, dof), x) <==>
              x(Id(p.layout.jntQ, dof)) == p.current.jointPositions[p.cfg.activeDofs[dof]] + Dt(p) * x(Id(p.layout.jntQd, dof + 6))
  {
    var q, qd := Id(p.layout.jntQ, dof), Id(p.layout.jntQd, dof + 6);
    var c := p.current.jointPositions[p.cfg.activeDofs[dof]];
    EvalAlgebra(Var(q), Plus(Const(c), Scaled(qd, Dt(p))), x);
    EvalAlgebra(Const(c), Scaled(qd, Dt(p)), x);
    EvalAtoms(c, q, 1.0, x);
    EvalAtoms(c, qd, Dt(p), x);
  }

  /** The acceleration constraint of `dof`: total_qdd = (total_qd - start velocity) / dt. */
  lemma AccelerationMeaning(p: Snapshot, dof: nat, x: nat -> real)
    requires Valid(p) && dof < Dofs(p)
    ensures Holds(AccelerationDefinition(p, dof), x) <==>
              x(Id(p.layout.totalQdd, dof)) == (x(Id(p.layout.totalQd, dof)) - PreviousVelocity(p, dof)) / Dt(p)
  {
    var a, v := Id(p.layout.totalQdd, dof), Id(p.layout.totalQd, dof);
    var c := PreviousVelocity(p, dof) / Dt(p);
    EvalAlgebra(Var(a), Minus(Scaled(v, 1.0 / Dt(p)), Const(c)), x);
    EvalAlgebra(Scaled(v, 1.0 / Dt(p)), Const(c), x);
    EvalAtoms(c, a, 1.0, x);
    EvalAtoms(c, v, 1.0 / Dt(p), x);
    Objective.DivideDifference(x(v), PreviousVelocity(p, dof), Dt(p));
  }
}

=== FILE: declarations.dfy ===
/**
 * Declaring the optimisation variables in the backend model
 * (`addVariableToModel`, called once per block at the top of every attempt).
 */
module Declarations {
  import opened Common
  import opened Variables

  /** A backend variable as `addVar` creates it; `start` is also the value `set(X, ...)` gives it. */
  datatype Decl = Continuous(lb: real, ub: real, start: real) | Binary(lo: int, hi: int, start: real)

  /** What the try block of `optimizePosture` can catch. */
  datatype Thrown = UnknownVariableType(tag: Tag, kind: char) | SolverThrew

  /** The types `addVariableToModel` handles; a block with no rows is never asked. */
  predicate Handled(b: Block) {
    b.rows == 0 || b.kind == 'C' || b.kind == 'B'
  }

  /** Row `row` of `b`: continuous with the block's bounds, or binary with the bounds cut to `int`. */
  function Declaration(b: Block, row: nat): Decl
    requires row < |b.guess|
  {
    if b.kind == 'B' then Binary(Truncate(b.lb), Truncate(b.ub), b.guess[row])
    else Continuous(b.lb, b.ub, b.guess[row])
  }

  /** The row loop of `addVariableToModel` from `row` on; the first row of an unknown type throws. */
  function DeclareRows(vars: seq<Option<Decl>>, b: Block, row: nat): (r: Result<seq<Option<Decl>>, Thrown>)
    requires End(b) <= |vars| && |b.guess| == b.rows
    ensures r.Success? <==> row >= b.rows || b.kind == 'C' || b.kind == 'B'
    ensures r.Failure? ==> r.error == UnknownVariableType(b.tag, b.kind)
    ensures r.Success? ==> |r.value| == |vars|
    ensures r.Success? ==> forall k :: 0 <= k < |vars| ==>
              r.value[k] == if b.base + row <= k < End(b) then Some(Declaration(b, k - b.base)) else vars[k]
    decreases b.rows - row
  {
    if row >= b.rows then Success(vars)
    else if b.kind != 'C' && b.kind != 'B' then Failure(UnknownVariableType(b.tag, b.kind))
    else DeclareRows(vars[Id(b, row) := Some(Declaration(b, row))], b, row + 1)
  }

  /** `addVariableToModel(b, model_, vars_)`. */
  function AddBlock(vars: seq<Option<Decl>>, b: Block): Result<seq<Option<Decl>>, Thrown>
    requires End(b) <= |vars| && |b.guess| == b.rows
  {
    DeclareRows(vars, b, 0)
  }

  predicate Fits(bs: seq<Block>, size: nat) {
    forall i :: 0 <= i < |bs| ==> End(bs[i]) <= size && |bs[i].guess| == bs[i].rows
  }

  /** The calls of `addVariableToModel`, in order; the first throw ends them. */
  function AddBlocks(vars: seq<Option<Decl>>, bs: seq<Block>): Result<seq<Option<Decl>>, Thrown>
    requires Fits(bs, |vars|)
    decreases |bs|
  {
    if |bs| == 0 then Success(vars)
    else
      var next :- AddBlock(vars, bs[0]);
      assert |next| == |vars|;
      AddBlocks(next, bs[1..])
  }

  /** Dropping the first block keeps the list fitting and separated. */
  lemma RestFits(bs: seq<Block>, size: nat)
    requires |bs| > 0 && Fits(bs, size) && Separated(bs)
    ensures Fits(bs[1..], size) && Separated(bs[1..])
  {
    var rest := bs[1..];
    forall i | 0 <= i < |rest| ensures End(rest[i]) <= size && |rest[i].guess| == rest[i].rows {
      assert rest[i] == bs[i + 1];
    }
    forall b1, b2 | b1 in rest && b2 in rest && b1 != b2 ensures Disjoint(b1, b2) {
      assert b1 in bs && b2 in bs;
    }
  }

  /** The first unhandled block of the tail, behind a handled head, is the first of the list. */
  lemma FailureShift(bs: seq<Block>, i: nat)
    requires |bs| > 0 && Handled(bs[0]) && i < |bs| - 1
    requires forall j :: 0 <= j < i ==> Handled(bs[1..][j])
    ensures bs[i + 1] == bs[1..][i]
    ensures forall j :: 0 <= j < i + 1 ==> Handled(bs[j])
  {
    forall j | 0 <= j < i + 1 ensures Handled(bs[j]) {
      if j > 0 {
        assert bs[j] == bs[1..][j - 1];
      }
    }
  }

  lemma HandledShift(bs: seq<Block>)
    requires |bs| > 0 && Handled(bs[0])
    requires forall i :: 0 <= i < |bs| - 1 ==> Handled(bs[1..][i])
    ensures forall i :: 0 <= i < |bs| ==> Handled(bs[i])
  {
    forall i | 0 <= i < |bs| ensures Handled(bs[i]) {
      if i > 0 {
        assert bs[i] == bs[1..][i - 1];
      }
    }
  }

  /**
   * The head's slots, declared by the first call, survive the later ones
   * because no other block owns them; the tail's slots come from the tail.
   */
  lemma DeclaredShift(vars: seq<Option<Decl>>, next: seq<Option<Decl>>, bs: seq<Block>, out: seq<Option<Decl>>)
    requires |bs| > 0 && Fits(bs, |vars|) && Separated(bs)
    requires AddBlock(vars, bs[0]) == Success(next)
    requires |out| == |vars|
    requires forall i, k: nat :: 0 <= i < |bs| - 1 && Owns(bs[1..][i], k) ==> out[k] == Some(Declaration(bs[1..][i], k - bs[1..][i].base))
    requires forall k: nat :: k < |next| && !OwnedIn(bs[1..], k) ==> out[k] == next[k]
    ensures forall i, k: nat :: 0 <= i < |bs| && Owns(bs[i], k) ==> out[k] == Some(Declaration(bs[i], k - bs[i].base))
  {
    var b, rest := bs[0], bs[1..];
    assert End(b) <= |vars|;
    forall i: int, k: nat | 0 <= i < |bs| && Owns(bs[i], k)
      ensures out[k] == Some(Declaration(bs[i], k - bs[i].base))
    {
      if i == 0 {
        if OwnedIn(rest, k) {
          var c :| c in rest && Owns(c, k);
          assert c == b by {
            assert b in bs && c in bs;
          }
          var j :| 0 <= j < |rest| && rest[j] == c;
        } else {
          assert out[k] == next[k];
        }
      } else {
        assert bs[i] == rest[i - 1];
      }
    }
  }

  /** A slot no block owns is left as it was by every call. */
  lemma UnownedShift(vars: seq<Option<Decl>>, next: seq<Option<Decl>>, bs: seq<Block>, out: seq<Option<Decl>>)
    requires |bs| > 0 && Fits(bs, |vars|)
    requires AddBlock(vars, bs[0]) == Success(next) && |out| == |vars|
    requires forall k: nat :: k < |next| && !OwnedIn(bs[1..], k) ==> out[k] == next[k]
    ensures forall k: nat :: k < |vars| && !OwnedIn(bs, k) ==> out[k] == vars[k]
  {
    assert End(bs[0]) <= |vars|;
    forall k: nat | k < |vars| && !OwnedIn(bs, k)
      ensures out[k] == vars[k]
    {
      assert !Owns(bs[0], k);
      forall c | c in bs[1..] ensures !Owns(c, k) {
        assert c in bs;
      }
      assert !OwnedIn(bs[1..], k);
    }
  }

  /** Every block handled, the first unhandled one reported, each owned slot declared from its owner. */
  lemma {:induction false} AddBlocksSpec(vars: seq<Option<Decl>>, bs: seq<Block>)
    requires Fits(bs, |vars|) && Separated(bs)
    ensures var r := AddBlocks(vars, bs);
            && (r.Success? <==> forall i :: 0 <= i < |bs| ==> Handled(bs[i]))
            && (r.Failure? ==> exists i :: 0 <= i < |bs| && !Handled(bs[i]) && r.error == UnknownVariableType(bs[i].tag, bs[i].kind)
                                 && forall j :: 0 <= j < i ==> Handled(bs[j]))
            && (r.Success? ==> |r.value| == |vars|)
            && (r.Success? ==> forall i, k: nat :: 0 <= i < |bs| && Owns(bs[i], k) ==> r.value[k] == Some(Declaration(bs[i], k - bs[i].base)))
            && (r.Success? ==> forall k: nat :: k < |vars| && !OwnedIn(bs, k) ==> r.value[k] == vars[k])
    decreases |bs|
  {
    if |bs| > 0 {
      var first := AddBlock(vars, bs[0]);
      if first.Success? {
        var next, rest := first.value, bs[1..];
        RestFits(bs, |vars|);
        AddBlocksSpec(next, rest);
        var r := AddBlocks(vars, bs);
        assert r == AddBlocks(next, rest);
        if r.Failure? {
          var i :| 0 <= i < |rest| && !Handled(rest[i]) && r.error == UnknownVariableType(rest[i].tag, rest[i].kind)
                   && forall j :: 0 <= j < i ==> Handled(rest[j]);
          FailureShift(bs, i);
        } else {
          HandledShift(bs);
          DeclaredShift(vars, next, bs, r.value);
          UnownedShift(vars, next, bs, r.value);
        }
      } else {
        assert !Handled(bs[0]);
      }
    }
  }

  /** The order the source adds the blocks in: joint blocks before the end-effector ones. */
  function AddOrder(L: Layout): seq<Block>
    requires |L.eefPos| == |L.eefVel|
  {
    [L.com, L.comd, L.lmom, L.amom, L.jntQ, L.jntQd, L.totalQd, L.totalQdd] + Interleave(L.eefPos, L.eefVel)
  }

  /** Adding in another order touches the same blocks as allocating did. */
  lemma SameBlocks(L: Layout)
    requires |L.eefPos| == |L.eefVel|
    ensures forall b :: b in AddOrder(L) <==> b in Blocks(L)
  {
  }

  /** `vars_` after the declarations: one empty slot per flat index, then every block added in source order. */
  function AddVariables(L: Layout): Result<seq<Option<Decl>>, Thrown>
    requires Allocated(L)
  {
    OrderFits(L);
    AddBlocks(seq(L.numVars, _ => None), AddOrder(L))
  }

  lemma OrderFits(L: Layout)
    requires Allocated(L)
    ensures Fits(AddOrder(L), L.numVars) && Separated(AddOrder(L))
  {
    BlocksSeparated(L);
    BlocksFit(L);
    SameBlocks(L);
    var bs := AddOrder(L);
    forall i | 0 <= i < |bs| ensures End(bs[i]) <= L.numVars && |bs[i].guess| == bs[i].rows {
      assert bs[i] in Blocks(L);
    }
    SeparatedMembers(Blocks(L), bs);
  }

  lemma BlocksSeparated(L: Layout)
    requires Allocated(L)
    ensures Separated(Blocks(L))
  {
    LayoutPartition(L);
  }

  /** Separation only depends on which blocks a list holds. */
  lemma SeparatedMembers(a: seq<Block>, b: seq<Block>)
    requires Separated(a) && forall c :: c in b ==> c in a
    ensures Separated(b)
  {
  }

  /** Every block the optimiser declares is of a handled type. */
  predicate KindsHandled(L: Layout)
    requires |L.eefPos| == |L.eefVel|
  {
    forall b :: b in Blocks(L) ==> Handled(b)
  }

  /**
   * `initializeKinematicVariables` allocates continuous blocks only, so
   * declaring the blocks it allocates never throws.
   */
  lemma InitializedHandled(numEffs: nat, numActive: nat, inf: real)
    ensures KindsHandled(InitializeVariables(numEffs, numActive, inf))
    ensures AddVariables(InitializeVariables(numEffs, numActive, inf)).Success?
  {
    AddVariablesSucceeds(InitializeVariables(numEffs, numActive, inf));
  }

  /** The declarations succeed iff every block is of a handled type. */
  lemma AddVariablesSucceeds(L: Layout)
    requires Allocated(L)
    ensures AddVariables(L).Success? <==> KindsHandled(L)
    ensures AddVariables(L).Failure? ==>
              exists b :: b in Blocks(L) && !Handled(b) && AddVariables(L).error == UnknownVariableType(b.tag, b.kind)
  {
    SameBlocks(L);
    OrderFits(L);
    var bs := AddOrder(L);
    var empty: seq<Option<Decl>> := seq(L.numVars, _ => None);
    AddBlocksSpec(empty, bs);
    var r := AddVariables(L);
    assert r == AddBlocks(empty, bs);
    if r.Success? {
      forall b | b in Blocks(L) ensures Handled(b) {
        assert b in bs;
      }
    } else {
      var i :| 0 <= i < |bs| && !Handled(bs[i]) && r.error == UnknownVariableType(bs[i].tag, bs[i].kind);
      assert bs[i] in Blocks(L);
    }
    if KindsHandled(L) {
      forall i | 0 <= i < |bs| ensures Handled(bs[i]) {
        assert bs[i] in Blocks(L);
      }
    }
  }

  /** `AddBlocksSpec` for the members of any list that has the same blocks as `bs`. */
  lemma AddBlocksDeclare(vars: seq<Option<Decl>>, bs: seq<Block>, others: seq<Block>)
    requires Fits(bs, |vars|) && Separated(bs)
    requires forall b :: b in others ==> b in bs
    requires AddBlocks(vars, bs).Success?
    ensures forall b :: b in others ==> |b.guess| == b.rows && End(b) <= |vars|
    ensures |AddBlocks(vars, bs).value| == |vars|
    ensures forall b, k: nat :: b in others && Owns(b, k) ==> AddBlocks(vars, bs).value[k] == Some(Declaration(b, k - b.base))
  {
    AddBlocksSpec(vars, bs);
    forall b | b in others ensures |b.guess| == b.rows && End(b) <= |vars| {
      var i :| 0 <= i < |bs| && bs[i] == b;
    }
    forall b, k: nat | b in others && Owns(b, k) ensures AddBlocks(vars, bs).value[k] == Some(Declaration(b, k - b.base)) {
      var i :| 0 <= i < |bs| && bs[i] == b;
    }
  }

  /**
   * After successful declarations every slot of a block is declared from
   * that block: its bounds, its type and its cached guess as start value.
   */
  lemma AddVariablesDeclares(L: Layout)
    requires Allocated(L)
    ensures forall b :: b in Blocks(L) ==> |b.guess| == b.rows && End(b) <= L.numVars
    ensures AddVariables(L).Success? ==>
              var vars := AddVariables(L).value;
              && |vars| == L.numVars
              && forall b, k: nat :: b in Blocks(L) && Owns(b, k) ==> vars[k] == Some(Declaration(b, k - b.base))
  {
    BlocksFit(L);
    SameBlocks(L);
    OrderFits(L);
    var empty: seq<Option<Decl>> := seq(L.numVars, _ => None);
    if AddVariables(L).Success? {
      AddBlocksDeclare(empty, AddOrder(L), Blocks(L));
    }
  }

  /** No flat index is left undeclared: the blocks cover `[0, numVars)`. */
  lemma AddVariablesComplete(L: Layout)
    requires Allocated(L)
    ensures AddVariables(L).Success? ==>
              var vars := AddVariables(L).value;
              |vars| == L.numVars && forall k :: 0 <= k < L.numVars ==> vars[k].Some?
  {
    LayoutPartition(L);
    AddVariablesDeclares(L);
    var r := AddVariables(L);
    if r.Success? {
      forall k | 0 <= k < L.numVars ensures r.value[k].Some? {
        assert OwnedIn(Blocks(L), k);
        var b :| b in Blocks(L) && Owns(b, k);
      }
    }
  }
}

=== FILE: linear.dfy ===
/**
 * Symbolic form of what the posture optimiser hands to the convex backend:
 * affine expressions over flat variable indices (`LinExpr`), kept as the
 * operator tree the source writes them with, weighted squared terms of the
 * objective (`addQuaTerm`) and linear constraints (`addLinConstr`). An
 * assignment `x` gives every flat index a value.
 */
module Linear {

  /**
   * `LinExpr(c)`, `LinExpr(vars_[i], k)`, `a + b` and `-a`; `a - b` is
   * `a + (-b)`.
   */
  datatype LinExpr =
    | Const(c: real)
    | Scaled(index: nat, coeff: real)
    | Plus(left: LinExpr, right: LinExpr)
    | Negate(arg: LinExpr)

  /** `LinExpr(vars_[i])`. */
  function Var(i: nat): LinExpr {
    Scaled(i, 1.0)
  }

  function Minus(a: LinExpr, b: LinExpr): LinExpr {
    Plus(a, Negate(b))
  }

  /** The value of an expression under an assignment. */
  function Eval(e: LinExpr, x: nat -> real): real {
    match e
    case Const(c) => c
    case Scaled(i, k) => k * x(i)
    case Plus(a, b) => Eval(a, x) + Eval(b, x)
    case Negate(a) => -Eval(a, x)
  }

  /** Does the expression have a term on flat index `i`? */
  predicate Mentions(e: LinExpr, i: nat) {
    match e
    case Const(_) => false
    case Scaled(j, _) => j == i
    case Plus(a, b) => Mentions(a, i) || Mentions(b, i)
    case Negate(a) => Mentions(a, i)
  }

  /** Evaluation respects the expression algebra the source writes constraints in. */
  lemma EvalAlgebra(a: LinExpr, b: LinExpr, x: nat -> real)
    ensures Eval(Plus(a, b), x) == Eval(a, x) + Eval(b, x)
    ensures Eval(Negate(a), x) == -Eval(a, x)
    ensures Eval(Minus(a, b), x) == Eval(a, x) - Eval(b, x)
  {
  }

  lemma EvalAtoms(c: real, i: nat, k: real, x: nat -> real)
    ensures Eval(Const(c), x) == c
    ensures Eval(Var(i), x) == x(i)
    ensures Eval(Scaled(i, k), x) == k * x(i)
  {
  }

  /** Every term of `Plus` and `Minus` comes from one of the operands, on the same index. */
  lemma MentionsAlgebra(a: LinExpr, b: LinExpr, i: nat)
    ensures Mentions(Plus(a, b), i) <==> Mentions(a, i) || Mentions(b, i)
    ensures Mentions(Minus(a, b), i) <==> Mentions(a, i) || Mentions(b, i)
  {
  }

  lemma MentionsAtoms(c: real, i: nat, k: real, j: nat)
    ensures !Mentions(Const(c), j)
    ensures Mentions(Var(i), j) <==> j == i
    ensures Mentions(Scaled(i, k), j) <==> j == i
  {
  }

  /** The relation string passed to `addLinConstr`. */
  datatype Rel = Eq | Gt | Lt

  /** `addLinConstr(lhs, rel, rhs)`. */
  datatype Constr = Constr(lhs: LinExpr, rel: Rel, rhs: real)

  /**
   * Whether an assignment satisfies a constraint. The backend reads `">"` and
   * `"<"` as closed bounds.
   */
  predicate Holds(c: Constr, x: nat -> real) {
    match c.rel
    case Eq => Eval(c.lhs, x) == c.rhs
    case Gt => Eval(c.lhs, x) >= c.rhs
    case Lt => Eval(c.lhs, x) <= c.rhs
  }

  /** `addQuaTerm(weight, expr)`: contributes `weight * expr^2` to the objective. */
  datatype QuadTerm = QuadTerm(weight: real, expr: LinExpr)
}

=== FILE: objective.dfy ===
/**
 * The objective of the posture QP (lines 103-149 of `optimizePosture`): one
 * weighted squared term per tracked quantity and axis, then the joint
 * regularisation terms.
 */
module Objective {
  import opened Common
  import opened Variables
  import opened Linear
  import opened Robot
  import opened Problem

  /**
   * What the objective needs: the sizes, and a time step to divide by when
   * `is_not_initial_state` adds the momentum-rate terms.
   */
  predicate Weighable(p: Snapshot) {
    Shaped(p) && (p.withMomentum ==> Dt(p) != 0.0)
  }

  /** Center-of-mass tracking on `axis`: weight times (desired - com)^2. */
  function ComTerm(p: Snapshot, axis: nat): QuadTerm
    requires Weighable(p) && axis < 3
  {
    QuadTerm(p.cfg.wCom.At(axis), Minus(Const(p.desired.com.At(axis)), Var(Id(p.layout.com, axis))))
  }

  /** Momentum tracking and momentum-rate terms on `axis`, in the order they are added. */
  function MomentumTerms(p: Snapshot, axis: nat): seq<QuadTerm>
    requires Shaped(p) && Dt(p) != 0.0 && axis < 3
  {
    var dt := Dt(p);
    var l := Id(p.layout.lmom, axis);
    var a := Id(p.layout.amom, axis);
    [ QuadTerm(p.cfg.wLinMom.At(axis), Minus(Const(p.desired.linMom.At(axis)), Var(l))),
      QuadTerm(p.cfg.wAngMom.At(axis), Minus(Const(p.desired.angMom.At(axis)), Var(a))),
      QuadTerm(p.cfg.wLinMomRate.At(axis), Minus(Scaled(l, 1.0 / dt), Const(p.start.linMom.At(axis) / dt))),
      QuadTerm(p.cfg.wAngMomRate.At(axis), Minus(Scaled(a, 1.0 / dt), Const(p.start.angMom.At(axis) / dt))) ]
  }

  /** Soft tracking of end-effector `eff`'s desired position on `axis`. */
  function SoftTerm(p: Snapshot, axis: nat, eff: nat): QuadTerm
    requires Weighable(p) && axis < 3 && eff < NumEffs(p)
  {
    QuadTerm(p.cfg.wEefPos.At(axis), Minus(Const(p.desired.eefPos[eff].At(axis)), Var(Id(p.layout.eefPos[eff], axis))))
  }

  /** The end-effector loop of one axis: a soft term for each inactive effector below NumActiveEndeffectors. */
  function SoftTerms(p: Snapshot, axis: nat, eff: nat): seq<QuadTerm>
    requires Weighable(p) && axis < 3
    decreases p.cfg.numActiveEffs - eff
  {
    if eff >= p.cfg.numActiveEffs then []
    else (if !p.desired.eefActive[eff] then [SoftTerm(p, axis, eff)] else []) + SoftTerms(p, axis, eff + 1)
  }

  /** The terms added in one pass of the axis loop. */
  function AxisTerms(p: Snapshot, axis: nat): seq<QuadTerm>
    requires Weighable(p) && axis < 3
  {
    [ComTerm(p, axis)] + (if p.withMomentum then MomentumTerms(p, axis) else []) + SoftTerms(p, axis, 0)
  }

  /**
   * Default-posture regularisation of active dof `dof` (from 6 on). The target
   * is the configured default of joint `ActiveDofs[dof]` minus 6.
   */
  function PostureTerm(p: Snapshot, dof: nat): QuadTerm
    requires Weighable(p) && 6 <= dof < Dofs(p)
  {
    QuadTerm(p.cfg.wDefaultPosture[dof - 6],
             Minus(Const(p.cfg.defaultPosture[p.cfg.activeDofs[dof]] - 6.0), Var(Id(p.layout.jntQ, dof))))
  }

  function PostureTerms(p: Snapshot): (r: seq<QuadTerm>)
    requires Weighable(p)
  {
    var count := if Dofs(p) <= 6 then 0 else Dofs(p) - 6;
    seq(count, i requires 0 <= i < count => PostureTerm(p, i + 6))
  }

  function VelocityTerms(p: Snapshot): seq<QuadTerm>
    requires Weighable(p)
  {
    seq(Dofs(p), d requires 0 <= d < Dofs(p) => QuadTerm(p.cfg.wJointVel[d], Var(Id(p.layout.totalQd, d))))
  }

  function AccelerationTerms(p: Snapshot): seq<QuadTerm>
    requires Weighable(p)
  {
    seq(Dofs(p), d requires 0 <= d < Dofs(p) => QuadTerm(p.cfg.wJointAcc[d], Var(Id(p.layout.totalQdd, d))))
  }

  /** The objective handed to `model_.setObjective`. */
  function ObjectiveTerms(p: Snapshot): seq<QuadTerm>
    requires Weighable(p)
  {
    Axes(p) + PostureTerms(p) + VelocityTerms(p) + AccelerationTerms(p)
  }

  /** Some term of `qs` has a term on flat index `k`. */
  predicate Touches(qs: seq<QuadTerm>, k: nat)
    decreases |qs|
  {
    |qs| > 0 && (Mentions(qs[0].expr, k) || Touches(qs[1..], k))
  }

  /**
   * The flat indices the objective puts weight on: the center of mass; the
   * momenta only when `is_not_initial_state`; the positions of the inactive
   * end-effectors below NumActiveEndeffectors; joint positions from row 6 on;
   * all total velocities and accelerations.
   */
  predicate Tracked(p: Snapshot, k: nat)
    requires Weighable(p)
  {
    var L := p.layout;
    || TaskTracked(p, k)
    || (Owns(L.jntQ, k) && L.jntQ.base + 6 <= k)
    || Owns(L.totalQd, k)
    || Owns(L.totalQdd, k)
  }

  /** The part of `Tracked` the axis loop is responsible for. */
  predicate TaskTracked(p: Snapshot, k: nat)
    requires Weighable(p)
  {
    var L := p.layout;
    || Owns(L.com, k)
    || (p.withMomentum && (Owns(L.lmom, k) || Owns(L.amom, k)))
    || exists e: nat :: e < p.cfg.numActiveEffs && !p.desired.eefActive[e] && Owns(L.eefPos[e], k)
  }

  lemma {:induction false} TouchesAppend(a: seq<QuadTerm>, b: seq<QuadTerm>, k: nat)
    ensures Touches(a + b, k) <==> Touches(a, k) || Touches(b, k)
    decreases |a|
  {
    if |a| == 0 {
      assert a + b == b;
    } else {
      assert (a + b)[0] == a[0];
      assert (a + b)[1..] == a[1..] + b;
      TouchesAppend(a[1..], b, k);
    }
  }

  lemma Touches4(a: seq<QuadTerm>, b: seq<QuadTerm>, c: seq<QuadTerm>, d: seq<QuadTerm>, k: nat)
    ensures Touches(a + b + c + d, k) <==> Touches(a, k) || Touches(b, k) || Touches(c, k) || Touches(d, k)
  {
    TouchesAppend(a + b + c, d, k);
    TouchesAppend(a + b, c, k);
    TouchesAppend(a, b, k);
  }

  /** A term `weight * (c - x[i])^2` or `weight * (s * x[i] - c)^2` touches only `i`. */
  lemma TouchesTracking(w: real, c: real, s: real, i: nat, k: nat)
    ensures Touches([QuadTerm(w, Minus(Const(c), Var(i)))], k) <==> k == i
    ensures Touches([QuadTerm(w, Minus(Scaled(i, s), Const(c)))], k) <==> k == i
    ensures Touches([QuadTerm(w, Var(i))], k) <==> k == i
  {
    MentionsAlgebra(Const(c), Var(i), k);
    MentionsAlgebra(Scaled(i, s), Const(c), k);
    MentionsAtoms(c, i, s, k);
    var q1, q2, q3 := QuadTerm(w, Minus(Const(c), Var(i))), QuadTerm(w, Minus(Scaled(i, s), Const(c))), QuadTerm(w, Var(i));
    if k == i {
      assert q1 in [q1] && q2 in [q2] && q3 in [q3];
    }
  }

  lemma MomentumTouches(p: Snapshot, axis: nat, k: nat)
    requires Shaped(p) && Dt(p) != 0.0 && axis < 3
    ensures Touches(MomentumTerms(p, axis), k) <==> k == 6 + axis || k == 9 + axis
  {
    var m := MomentumTerms(p, axis);
    assert m == [m[0]] + [m[1]] + [m[2]] + [m[3]];
    TouchesAppend([m[0]] + [m[1]] + [m[2]], [m[3]], k);
    TouchesAppend([m[0]] + [m[1]], [m[2]], k);
    TouchesAppend([m[0]], [m[1]], k);
    var dt := Dt(p);
    var l, a := Id(p.layout.lmom, axis), Id(p.layout.amom, axis);
    TouchesTracking(p.cfg.wLinMom.At(axis), p.desired.linMom.At(axis), 0.0, l, k);
    TouchesTracking(p.cfg.wAngMom.At(axis), p.desired.angMom.At(axis), 0.0, a, k);
    TouchesTracking(p.cfg.wLinMomRate.At(axis), p.start.linMom.At(axis) / dt, 1.0 / dt, l, k);
    TouchesTracking(p.cfg.wAngMomRate.At(axis), p.start.angMom.At(axis) / dt, 1.0 / dt, a, k);
  }

  /** The flat indices of the soft-tracked positions on `axis`, from effector `eff` on. */
  predicate SoftSlot(p: Snapshot, axis: nat, eff: nat, k: nat)
    requires Weighable(p) && axis < 3
  {
    exists e: nat :: eff <= e < p.cfg.numActiveEffs && !p.desired.eefActive[e] && k == p.layout.eefPos[e].base + axis
  }

  /** The slots from effector `eff` on: this effector's, if it is soft-tracked, then the later ones. */
  lemma SoftSlotStep(p: Snapshot, axis: nat, eff: nat, k: nat)
    requires Weighable(p) && axis < 3 && eff < p.cfg.numActiveEffs
    ensures SoftSlot(p, axis, eff, k) <==>
              (!p.desired.eefActive[eff] && k == Id(p.layout.eefPos[eff], axis)) || SoftSlot(p, axis, eff + 1, k)
  {
    if SoftSlot(p, axis, eff, k) {
      var e: nat :| eff <= e < p.cfg.numActiveEffs && !p.desired.eefActive[e] && k == p.layout.eefPos[e].base + axis;
      if e != eff {
        assert SoftSlot(p, axis, eff + 1, k);
      }
    }
    if SoftSlot(p, axis, eff + 1, k) {
      var e: nat :| eff + 1 <= e < p.cfg.numActiveEffs && !p.desired.eefActive[e] && k == p.layout.eefPos[e].base + axis;
      assert SoftSlot(p, axis, eff, k);
    }
  }

  /** The term the end-effector loop adds for effector `eff`, if any. */
  function SoftHead(p: Snapshot, axis: nat, eff: nat): seq<QuadTerm>
    requires Weighable(p) && axis < 3 && eff < p.cfg.numActiveEffs
  {
    if !p.desired.eefActive[eff] then [SoftTerm(p, axis, eff)] else []
  }

  lemma SoftHeadTouches(p: Snapshot, axis: nat, eff: nat, k: nat)
    requires Weighable(p) && axis < 3 && eff < p.cfg.numActiveEffs
    ensures Touches(SoftHead(p, axis, eff), k) <==> !p.desired.eefActive[eff] && k == Id(p.layout.eefPos[eff], axis)
  {
    assert !Touches([], k);
    TouchesTracking(p.cfg.wEefPos.At(axis), p.desired.eefPos[eff].At(axis), 0.0, Id(p.layout.eefPos[eff], axis), k);
  }

  lemma {:induction false} SoftTouches(p: Snapshot, axis: nat, eff: nat, k: nat)
    requires Weighable(p) && axis < 3
    ensures Touches(SoftTerms(p, axis, eff), k) <==> SoftSlot(p, axis, eff, k)
    decreases p.cfg.numActiveEffs - eff
  {
    if eff < p.cfg.numActiveEffs {
      assert SoftTerms(p, axis, eff) == SoftHead(p, axis, eff) + SoftTerms(p, axis, eff + 1);
      SoftTouches(p, axis, eff + 1, k);
      TouchesAppend(SoftHead(p, axis, eff), SoftTerms(p, axis, eff + 1), k);
      SoftHeadTouches(p, axis, eff, k);
      SoftSlotStep(p, axis, eff, k);
    } else {
      assert !Touches([], k);
    }
  }

  /** The flat indices one axis pass weighs. */
  predicate AxisSlot(p: Snapshot, axis: nat, k: nat)
    requires Weighable(p) && axis < 3
  {
    || k == axis
    || (p.withMomentum && (k == 6 + axis || k == 9 + axis))
    || SoftSlot(p, axis, 0, k)
  }

  lemma AxisTouches(p: Snapshot, axis: nat, k: nat)
    requires Weighable(p) && axis < 3
    ensures Touches(AxisTerms(p, axis), k) <==> AxisSlot(p, axis, k)
  {
    var mom := if p.withMomentum then MomentumTerms(p, axis) else [];
    TouchesAppend([ComTerm(p, axis)] + mom, SoftTerms(p, axis, 0), k);
    TouchesAppend([ComTerm(p, axis)], mom, k);
    TouchesTracking(p.cfg.wCom.At(axis), p.desired.com.At(axis), 0.0, Id(p.layout.com, axis), k);
    if p.withMomentum {
      MomentumTouches(p, axis, k);
    } else {
      assert !Touches([], k);
    }
    SoftTouches(p, axis, 0, k);
  }

  /** Term `i` of `qs` is on flat index `base + i` alone. */
  ghost predicate Diagonal(qs: seq<QuadTerm>, base: nat) {
    forall i, k: nat :: 0 <= i < |qs| ==> (Mentions(qs[i].expr, k) <==> k == base + i)
  }

  lemma {:induction false} DiagonalTouches(qs: seq<QuadTerm>, base: nat, k: nat)
    requires Diagonal(qs, base)
    ensures Touches(qs, k) <==> base <= k < base + |qs|
    decreases |qs|
  {
    if |qs| > 0 {
      assert Mentions(qs[0].expr, k) <==> k == base;
      assert Diagonal(qs[1..], base + 1) by {
        forall i, j: nat | 0 <= i < |qs[1..]|
          ensures Mentions(qs[1..][i].expr, j) <==> j == base + 1 + i
        {
          assert qs[1..][i] == qs[i + 1];
        }
      }
      DiagonalTouches(qs[1..], base + 1, k);
    }
  }

  lemma PostureTouches(p: Snapshot, k: nat)
    requires Weighable(p)
    ensures Touches(PostureTerms(p), k) <==> Owns(p.layout.jntQ, k) && p.layout.jntQ.base + 6 <= k
  {
    var post, base := PostureTerms(p), p.layout.jntQ.base + 6;
    forall i, j: nat | 0 <= i < |post| ensures Mentions(post[i].expr, j) <==> j == base + i {
      MentionsAlgebra(Const(p.cfg.defaultPosture[p.cfg.activeDofs[i + 6]] - 6.0), Var(Id(p.layout.jntQ, i + 6)), j);
    }
    DiagonalTouches(post, base, k);
  }

  lemma VelocityTouches(p: Snapshot, k: nat)
    requires Weighable(p)
    ensures Touches(VelocityTerms(p), k) <==> Owns(p.layout.totalQd, k)
  {
    DiagonalTouches(VelocityTerms(p), p.layout.totalQd.base, k);
  }

  lemma AccelerationTouches(p: Snapshot, k: nat)
    requires Weighable(p)
    ensures Touches(AccelerationTerms(p), k) <==> Owns(p.layout.totalQdd, k)
  {
    DiagonalTouches(AccelerationTerms(p), p.layout.totalQdd.base, k);
  }

  /** The three axis passes weigh the center of mass, the momenta when enabled, and the free effectors. */
  lemma AxisSlotsOwned(p: Snapshot, k: nat)
    requires Weighable(p)
    ensures AxesSlot(p, k) <==> TaskTracked(p, k)
  {
    var L := p.layout;
    if e: nat :| e < p.cfg.numActiveEffs && !p.desired.eefActive[e] && Owns(L.eefPos[e], k) {
      var axis := k - L.eefPos[e].base;
      assert axis == 0 || axis == 1 || axis == 2;
      assert SoftSlot(p, axis, 0, k);
      assert AxisSlot(p, axis, k);
    }
    if Owns(L.com, k) {
      assert AxisSlot(p, k, k);
    }
    if p.withMomentum && Owns(L.lmom, k) {
      assert AxisSlot(p, k - 6, k);
    }
    if p.withMomentum && Owns(L.amom, k) {
      assert AxisSlot(p, k - 9, k);
    }
    if axis: nat :| axis < 3 && SoftSlot(p, axis, 0, k) {
      var e: nat :| e < p.cfg.numActiveEffs && !p.desired.eefActive[e] && k == L.eefPos[e].base + axis;
      assert Owns(L.eefPos[e], k);
    }
  }

  /** The axis loop: its three passes, in order. */
  function Axes(p: Snapshot): seq<QuadTerm>
    requires Weighable(p)
  {
    AxisTerms(p, 0) + AxisTerms(p, 1) + AxisTerms(p, 2)
  }

  /** The flat indices the three axis passes weigh. */
  predicate AxesSlot(p: Snapshot, k: nat)
    requires Weighable(p)
  {
    AxisSlot(p, 0, k) || AxisSlot(p, 1, k) || AxisSlot(p, 2, k)
  }

  lemma AxesTouches(p: Snapshot, k: nat)
    requires Weighable(p)
    ensures Touches(Axes(p), k) <==> AxesSlot(p, k)
  {
    TouchesAppend(AxisTerms(p, 0) + AxisTerms(p, 1), AxisTerms(p, 2), k);
    TouchesAppend(AxisTerms(p, 0), AxisTerms(p, 1), k);
    AxisTouches(p, 0, k);
    AxisTouches(p, 1, k);
    AxisTouches(p, 2, k);
  }

  /**
   * Which variables the objective weighs: exactly the `Tracked` ones. In
   * particular the momenta are weighed iff `is_not_initial_state`, and an
   * end-effector position is tracked softly iff the effector is below
   * NumActiveEndeffectors and inactive.
   */
  lemma ObjectiveTouches(p: Snapshot, k: nat)
    requires Weighable(p)
    ensures Touches(ObjectiveTerms(p), k) <==> Tracked(p, k)
  {
    AxesTracked(p, k);
    ObjectiveParts(p, k);
    PostureTouches(p, k);
    VelocityTouches(p, k);
    AccelerationTouches(p, k);
  }

  lemma AxesTracked(p: Snapshot, k: nat)
    requires Weighable(p)
    ensures Touches(Axes(p), k) <==> TaskTracked(p, k)
  {
    if Touches(Axes(p), k) {
      AxesTouches(p, k);
      AxisSlotsOwned(p, k);
    }
    if TaskTracked(p, k) {
      AxisSlotsOwned(p, k);
      AxesTouches(p, k);
    }
  }

  lemma {:induction false} ObjectiveParts(p: Snapshot, k: nat)
    requires Weighable(p)
    ensures Touches(ObjectiveTerms(p), k) <==>
              Touches(Axes(p), k) || Touches(PostureTerms(p), k) || Touches(VelocityTerms(p), k) || Touches(AccelerationTerms(p), k)
  {
    Touches4(Axes(p), PostureTerms(p), VelocityTerms(p), AccelerationTerms(p), k);
  }

  lemma SoftSlotTracked(p: Snapshot, axis: nat, eff: nat)
    requires Weighable(p) && axis < 3 && eff < NumEffs(p)
    ensures Tracked(p, Id(p.layout.eefPos[eff], axis)) <==> eff < p.cfg.numActiveEffs && !p.desired.eefActive[eff]
  {
    var L := p.layout;
    var k := Id(L.eefPos[eff], axis);
    if Tracked(p, k) {
      assert TaskTracked(p, k);
      var e: nat :| e < p.cfg.numActiveEffs && !p.desired.eefActive[e] && Owns(L.eefPos[e], k);
      assert e == eff;
    }
    if eff < p.cfg.numActiveEffs && !p.desired.eefActive[eff] {
      assert Owns(L.eefPos[eff], k);
      assert TaskTracked(p, k);
    }
  }

  /**
   * A position row of end-effector `eff` is weighed by the objective iff the
   * effector is below NumActiveEndeffectors and inactive.
   */
  lemma SoftTracked(p: Snapshot, axis: nat, eff: nat)
    requires Weighable(p) && axis < 3 && eff < NumEffs(p)
    ensures Touches(ObjectiveTerms(p), Id(p.layout.eefPos[eff], axis)) <==>
              eff < p.cfg.numActiveEffs && !p.desired.eefActive[eff]
  {
    var k := Id(p.layout.eefPos[eff], axis);
    if Touches(ObjectiveTerms(p), k) {
      ObjectiveTouches(p, k);
      SoftSlotTracked(p, axis, eff);
    }
    if eff < p.cfg.numActiveEffs && !p.desired.eefActive[eff] {
      SoftSlotTracked(p, axis, eff);
      ObjectiveTouches(p, k);
    }
  }

  lemma MomentumSlotTracked(p: Snapshot, k: nat)
    requires Weighable(p) && (Owns(p.layout.lmom, k) || Owns(p.layout.amom, k))
    ensures Tracked(p, k) <==> p.withMomentum
  {
    if p.withMomentum {
      assert TaskTracked(p, k);
    }
  }

  /** The momentum rows are weighed iff `is_not_initial_state`. */
  lemma MomentumGated(p: Snapshot, k: nat)
    requires Weighable(p) && (Owns(p.layout.lmom, k) || Owns(p.layout.amom, k))
    ensures Touches(ObjectiveTerms(p), k) <==> p.withMomentum
  {
    if Touches(ObjectiveTerms(p), k) {
      ObjectiveTouches(p, k);
      MomentumSlotTracked(p, k);
    }
    if p.withMomentum {
      MomentumSlotTracked(p, k);
      ObjectiveTouches(p, k);
    }
  }

  /**
   * The momentum-rate term of `axis` is the squared finite difference between
   * the momentum variable and the start state's momentum over the time step.
   */
  lemma MomentumRateMeaning(p: Snapshot, axis: nat, x: nat -> real)
    requires Shaped(p) && Dt(p) != 0.0 && axis < 3
    ensures var terms := MomentumTerms(p, axis);
            && Eval(terms[2].expr, x) == (x(Id(p.layout.lmom, axis)) - p.start.linMom.At(axis)) / Dt(p)
            && Eval(terms[3].expr, x) == (x(Id(p.layout.amom, axis)) - p.start.angMom.At(axis)) / Dt(p)
  {
    var dt := Dt(p);
    var l, a := Id(p.layout.lmom, axis), Id(p.layout.amom, axis);
    EvalAlgebra(Scaled(l, 1.0 / dt), Const(p.start.linMom.At(axis) / dt), x);
    EvalAlgebra(Scaled(a, 1.0 / dt), Const(p.start.angMom.At(axis) / dt), x);
    EvalAtoms(p.start.linMom.At(axis) / dt, l, 1.0 / dt, x);
    EvalAtoms(p.start.angMom.At(axis) / dt, a, 1.0 / dt, x);
    DivideDifference(x(l), p.start.linMom.At(axis), dt);
    DivideDifference(x(a), p.start.angMom.At(axis), dt);
  }

  lemma DivideDifference(v: real, c: real, dt: real)
    requires dt != 0.0
    ensures (1.0 / dt) * v - c / dt == (v - c) / dt
  {
  }

  /** Tracking the center of mass on `axis`: its weight, and desired com minus the com variable. */
  lemma ComTargetMeaning(p: Snapshot, axis: nat, x: nat -> real)
    requires Weighable(p) && axis < 3
    ensures ComTerm(p, axis).weight == p.cfg.wCom.At(axis)
    ensures Eval(ComTerm(p, axis).expr, x) == p.desired.com.At(axis) - x(Id(p.layout.com, axis))
  {
    var c, k := p.desired.com.At(axis), Id(p.layout.com, axis);
    EvalAlgebra(Const(c), Var(k), x);
    EvalAtoms(c, k, 1.0, x);
  }

  /** The two momentum-tracking terms of `axis`: desired momentum minus the momentum variable. */
  lemma MomentumTargetMeaning(p: Snapshot, axis: nat, x: nat -> real)
    requires Shaped(p) && Dt(p) != 0.0 && axis < 3
    ensures var terms := MomentumTerms(p, axis);
            && terms[0].weight == p.cfg.wLinMom.At(axis) && terms[1].weight == p.cfg.wAngMom.At(axis)
            && Eval(terms[0].expr, x) == p.desired.linMom.At(axis) - x(Id(p.layout.lmom, axis))
            && Eval(terms[1].expr, x) == p.desired.angMom.At(axis) - x(Id(p.layout.amom, axis))
  {
    var l, a := Id(p.layout.lmom, axis), Id(p.layout.amom, axis);
    EvalAlgebra(Const(p.desired.linMom.At(axis)), Var(l), x);
    EvalAlgebra(Const(p.desired.angMom.At(axis)), Var(a), x);
    EvalAtoms(p.desired.linMom.At(axis), l, 1.0, x);
    EvalAtoms(p.desired.angMom.At(axis), a, 1.0, x);
  }

  /** Soft tracking of effector `eff` on `axis`: desired position minus the position variable. */
  lemma SoftTargetMeaning(p: Snapshot, axis: nat, eff: nat, x: nat -> real)
    requires Weighable(p) && axis < 3 && eff < NumEffs(p)
    ensures SoftTerm(p, axis, eff).weight == p.cfg.wEefPos.At(axis)
    ensures Eval(SoftTerm(p, axis, eff).expr, x) == p.desired.eefPos[eff].At(axis) - x(Id(p.layout.eefPos[eff], axis))
  {
    var c, k := p.desired.eefPos[eff].At(axis), Id(p.layout.eefPos[eff], axis);
    EvalAlgebra(Const(c), Var(k), x);
    EvalAtoms(c, k, 1.0, x);
  }

  /** The regularisation of active dof `d`: its weight, and the total velocity and acceleration themselves. */
  lemma RegularisationMeaning(p: Snapshot, d: nat, x: nat -> real)
    requires Weighable(p) && d < Dofs(p)
    ensures VelocityTerms(p)[d].weight == p.cfg.wJointVel[d]
    ensures Eval(VelocityTerms(p)[d].expr, x) == x(Id(p.layout.totalQd, d))
    ensures AccelerationTerms(p)[d].weight == p.cfg.wJointAcc[d]
    ensures Eval(AccelerationTerms(p)[d].expr, x) == x(Id(p.layout.totalQdd, d))
  {
    EvalAtoms(0.0, Id(p.layout.totalQd, d), 1.0, x);
    EvalAtoms(0.0, Id(p.layout.totalQdd, d), 1.0, x);
  }

  /**
   * The default-posture term of active dof `dof` pulls its joint position
   * towards the configured default of joint `ActiveDofs[dof]` minus 6.
   */
  lemma PostureTargetMeaning(p: Snapshot, dof: nat, x: nat -> real)
    requires Weighable(p) && 6 <= dof < Dofs(p)
    ensures PostureTerms(p)[dof - 6].weight == p.cfg.wDefaultPosture[dof - 6]
    ensures Eval(PostureTerms(p)[dof - 6].expr, x) ==
              p.cfg.defaultPosture[p.cfg.activeDofs[dof]] - 6.0 - x(Id(p.layout.jntQ, dof))
  {
    var c := p.cfg.defaultPosture[p.cfg.activeDofs[dof]] - 6.0;
    var k := Id(p.layout.jntQ, dof);
    EvalAlgebra(Const(c), Var(k), x);
    EvalAtoms(c, k, 1.0, x);
  }
}

=== FILE: posture.dfy ===
/**
 * The iteration of `optimizePosture` and its caller `optimize`: refresh the
 * current state through the kinematics provider, test convergence, then one
 * pass through the try block (declare the variables, add the objective and
 * the constraints, solve, write back), with any exception caught and the
 * loop carrying on.
 */
module Posture {
  import opened Common
  import opened Variables
  import opened Linear
  import opened Robot
  import opened Problem
  import opened Declarations
  import opened Objective
  import opened Constraints
  import opened WriteBack

  /** What `kin_interface_->updateJacobians(current_state)` returns: the new state and its matrices. */
  datatype Refreshed = Refreshed(state: KinState, jac: Jacobians)

  /** The problem handed to `model_.optimize()`. */
  datatype Qp = Qp(vars: seq<Option<Decl>>, objective: seq<QuadTerm>, constraints: seq<Constr>)

  /** What `model_.optimize()` does: return an exit code and the variables' `X` values, or throw. */
  datatype SolverReply = Returned(exitcode: int, x: nat -> real) | Threw

  /** One pass through the try block. */
  datatype Outcome =
    | Committed(layout: Layout, state: KinState, exitcode: int)
    | Caught(reason: Thrown)
    | Undefined(fault: Fault)

  /**
   * A snapshot the try block can run on. The build divides by the mass, and by
   * the time step when the momentum-rate terms are on, only once the
   * declarations have succeeded, that is when every block is of a handled type.
   */
  predicate Admissible(p: Snapshot) {
    Shaped(p) && (KindsHandled(p.layout) ==> Divisible(p.cfg, p.desired, p.withMomentum))
  }

  /**
   * The try block: declarations, objective, constraints, solve, write-back.
   * A throw leaves the blocks and the current state as they were.
   */
  function Attempt(p: Snapshot, solver: Qp -> SolverReply): (o: Outcome)
    requires Admissible(p)
    ensures Sound(p, o)
  {
    AddVariablesSucceeds(p.layout);
    match AddVariables(p.layout)
    case Failure(t) => Caught(t)
    case Success(vars) =>
      var objective := ObjectiveTerms(p);
      var built := ConstraintList(p);
      match built.fault
      case Some(f) => Undefined(f)
      case None =>
        match solver(Qp(vars, objective, built.out))
        case Threw => Caught(SolverThrew)
        case Returned(code, x) =>
          var saved := SaveAll(p.layout, ReadSolution(x, p.layout.numVars));
          Committed(saved, WriteMomenta(saved, p.current), code)
  }

  /**
   * The try block never reaches the solver: it throws while declaring the
   * variables when a block has an unhandled type, and otherwise the first
   * centroidal-momentum constraint reads past the end of the joint-velocity
   * block.
   */
  lemma AttemptOutcome(p: Snapshot, solver: Qp -> SolverReply)
    requires Admissible(p)
    ensures AddVariables(p.layout).Success? <==> KindsHandled(p.layout)
    ensures !KindsHandled(p.layout) ==> Attempt(p, solver) == Caught(AddVariables(p.layout).error)
    ensures KindsHandled(p.layout) ==> Attempt(p, solver) == Undefined(RowOutOfRange(JointVelocity, Dofs(p)))
  {
    AddVariablesSucceeds(p.layout);
    if KindsHandled(p.layout) {
      BuildStops(p);
    }
  }

  /** The cut-off of the error loop's axis index: `axis_id < 0`. */
  const ErrorAxisBound: nat := 0

  /** The end-effector part of one axis of the tracking error, from effector `eff` on. */
  function EffectorError(cfg: Setting, cur: KinState, desired: DynState, axis: nat, eff: nat): real
    requires axis < 3 && cfg.numActiveEffs <= |cur.eefPos| && cfg.numActiveEffs <= |desired.eefPos|
    decreases cfg.numActiveEffs - eff
  {
    if eff >= cfg.numActiveEffs then 0.0
    else
      var d := cur.eefPos[eff].At(axis) - desired.eefPos[eff].At(axis);
      cfg.wEefPos.At(axis) * d * d + EffectorError(cfg, cur, desired, axis, eff + 1)
  }

  /** `cur_error`: the weighted squared tracking error summed over the axes `axis .. bound - 1`. */
  function TrackingError(cfg: Setting, cur: KinState, desired: DynState, axis: nat, bound: nat): real
    requires bound <= 3 && cfg.numActiveEffs <= |cur.eefPos| && cfg.numActiveEffs <= |desired.eefPos|
    decreases bound - axis
  {
    if axis >= bound then 0.0
    else
      var d := cur.com.At(axis) - desired.com.At(axis);
      cfg.wCom.At(axis) * d * d + EffectorError(cfg, cur, desired, axis, 0)
        + TrackingError(cfg, cur, desired, axis + 1, bound)
  }

  /** The break test of the loop; `prev` starts at the solver's infinity, which is never within tolerance. */
  predicate Converged(prev: Extended, cur: real, tol: real) {
    cur < tol || (prev.Finite? && Abs(prev.v - cur) < tol)
  }

  /** A pass through the try block keeps the blocks' shape and writes only the momenta. */
  predicate Sound(p: Snapshot, o: Outcome) {
    o.Committed? ==>
      && Allocated(o.layout) && SameShape(p.layout, o.layout)
      && o.state.(linMom := p.current.linMom, angMom := p.current.angMom) == p.current
  }

  /**
   * What stays fixed across the iterations: settings, target, start state,
   * flag, the kinematics provider, and the pass through the try block.
   */
  datatype Context = Context(
    cfg: Setting,
    desired: DynState,
    start: KinState,
    withMomentum: bool,
    refresh: KinState -> Refreshed,
    pass: Snapshot --> Outcome)

  /** The provider turns a state readable by the optimiser into another one. */
  ghost predicate Preserves(ctx: Context, s: KinState, numEffs: nat) {
    ValidState(s, ctx.cfg, numEffs) ==> ValidState(ctx.refresh(s).state, ctx.cfg, numEffs)
  }

  /** The pass accepts every well-formed snapshot and is sound on it. */
  ghost predicate Accepts(ctx: Context, p: Snapshot) {
    Admissible(p) ==> ctx.pass.requires(p) && Sound(p, ctx.pass(p))
  }

  /** Well-formed settings, states and provider. */
  ghost predicate ValidContext(ctx: Context, numEffs: nat) {
    && ValidSetting(ctx.cfg, numEffs)
    && ValidState(ctx.start, ctx.cfg, numEffs)
    && ValidTarget(ctx.desired, numEffs)
    && (forall s :: Preserves(ctx, s, numEffs))
    && (forall p :: Accepts(ctx, p))
  }

  /**
   * A run reaches the objective and the constraints only when the tolerance
   * is not positive (the error is always zero) and every block is of a
   * handled type; such a run divides by the mass, and by the time step when
   * the momentum-rate terms are on.
   */
  predicate BuildReady(cfg: Setting, desired: DynState, withMomentum: bool, L: Layout)
    requires |L.eefPos| == |L.eefVel|
  {
    cfg.tolerance <= 0.0 && KindsHandled(L) ==> Divisible(cfg, desired, withMomentum)
  }

  /** Blocks that differ only in their guesses are handled alike. */
  lemma SameShapeHandled(L1: Layout, L2: Layout)
    requires |L1.eefPos| == |L1.eefVel| && SameShape(L1, L2)
    ensures KindsHandled(L1) <==> KindsHandled(L2)
  {
    HandledFrom(L1, L2);
    HandledFrom(L2, L1);
  }

  lemma HandledFrom(L1: Layout, L2: Layout)
    requires |L1.eefPos| == |L1.eefVel| && (SameShape(L1, L2) || SameShape(L2, L1))
    ensures KindsHandled(L1) ==> KindsHandled(L2)
  {
    if KindsHandled(L1) {
      InterleaveMembers(L1.eefPos, L1.eefVel);
      InterleaveMembers(L2.eefPos, L2.eefVel);
      forall b | b in Blocks(L2) ensures Handled(b) {
        if b in L2.eefPos {
          var e :| 0 <= e < |L2.eefPos| && L2.eefPos[e] == b;
          assert L1.eefPos[e] in Blocks(L1);
        } else if b in L2.eefVel {
          var e :| 0 <= e < |L2.eefVel| && L2.eefVel[e] == b;
          assert L1.eefVel[e] in Blocks(L1);
        } else {
          assert b in [L2.com, L2.comd, L2.lmom, L2.amom, L2.jntQ, L2.jntQd, L2.totalQd, L2.totalQdd];
          assert L1.com in Blocks(L1) && L1.comd in Blocks(L1) && L1.lmom in Blocks(L1) && L1.amom in Blocks(L1);
          assert L1.jntQ in Blocks(L1) && L1.jntQd in Blocks(L1) && L1.totalQd in Blocks(L1) && L1.totalQdd in Blocks(L1);
        }
      }
    }
  }

  /** What each iteration that reached the try block did with it. */
  datatype Step = Recovered(reason: Thrown) | Solved(exitcode: int)

  /** How the loop ended. */
  datatype Halt = Exhausted | ConvergedAt(iter: nat) | UndefinedAt(iter: nat, fault: Fault)

  /** The final blocks and current state, the iterations' steps, and how the loop ended. */
  datatype Run = Run(state: KinState, layout: Layout, steps: seq<Step>, halt: Halt)

  /** The loop of `optimizePosture` from iteration `iter` on, with `budget` iterations left. */
  function Loop(ctx: Context, L: Layout, cur: KinState, prev: Extended, iter: nat, budget: nat): (r: Run)
    requires ValidContext(ctx, |L.eefPos|) && Allocated(L) && L.jntQ.rows == |ctx.cfg.activeDofs|
    requires BuildReady(ctx.cfg, ctx.desired, ctx.withMomentum, L)
    requires ValidState(cur, ctx.cfg, |L.eefPos|)
    ensures |r.steps| <= budget
    ensures r.halt.Exhausted? ==> |r.steps| == budget
    ensures r.halt.ConvergedAt? ==> r.halt.iter == iter + |r.steps| < iter + budget
    ensures r.halt.UndefinedAt? ==> r.halt.iter == iter + |r.steps| < iter + budget
    decreases budget
  {
    if budget == 0 then Run(cur, L, [], Exhausted)
    else
      assert Preserves(ctx, cur, |L.eefPos|);
      var updated := ctx.refresh(cur);
      var s := updated.state;
      var err := TrackingError(ctx.cfg, s, ctx.desired, 0, ErrorAxisBound);
      if Converged(prev, err, ctx.cfg.tolerance) then Run(s, L, [], ConvergedAt(iter))
      else
        assert ctx.cfg.tolerance <= 0.0;
        var p := Snapshot(ctx.cfg, L, s, ctx.start, ctx.desired, updated.jac, ctx.withMomentum);
        assert Admissible(p);
        assert Accepts(ctx, p);
        match ctx.pass(p)
        case Undefined(f) => Run(s, L, [], UndefinedAt(iter, f))
        case Caught(t) =>
          var rest := Loop(ctx, L, s, Finite(err), iter + 1, budget - 1);
          rest.(steps := [Recovered(t)] + rest.steps)
        case Committed(saved, next, code) =>
          SameShapeHandled(L, saved);
          var rest := Loop(ctx, saved, next, Finite(err), iter + 1, budget - 1);
          rest.(steps := [Solved(code)] + rest.steps)
  }

  /** The iteration budget: `MaxKinConvergenceIterations`, no iteration when it is not positive. */
  function Budget(cfg: Setting): nat {
    if cfg.maxIterations <= 0 then 0 else cfg.maxIterations
  }

  /** The state after `n` refreshes through the provider. */
  function Iterate(refresh: KinState -> Refreshed, s: KinState, n: nat): KinState
    decreases n
  {
    if n == 0 then s else Iterate(refresh, refresh(s).state, n - 1)
  }

  /** The error the loop computes is zero, whatever the states: its axis loop never runs. */
  lemma ErrorIsZero(cfg: Setting, cur: KinState, desired: DynState)
    requires cfg.numActiveEffs <= |cur.eefPos| && cfg.numActiveEffs <= |desired.eefPos|
    ensures TrackingError(cfg, cur, desired, 0, ErrorAxisBound) == 0.0
  {
  }

  /** With a positive tolerance the first convergence test succeeds: the try block never runs. */
  lemma ConvergesAtOnce(ctx: Context, L: Layout, cur: KinState, prev: Extended, iter: nat, budget: nat)
    requires ValidContext(ctx, |L.eefPos|) && Allocated(L) && L.jntQ.rows == |ctx.cfg.activeDofs|
    requires BuildReady(ctx.cfg, ctx.desired, ctx.withMomentum, L)
    requires ValidState(cur, ctx.cfg, |L.eefPos|)
    requires budget > 0 && ctx.cfg.tolerance > 0.0
    ensures Loop(ctx, L, cur, prev, iter, budget) == Run(ctx.refresh(cur).state, L, [], ConvergedAt(iter))
  {
    assert Preserves(ctx, cur, |L.eefPos|);
    ErrorIsZero(ctx.cfg, ctx.refresh(cur).state, ctx.desired);
  }

  /** A tolerance that is not positive is never met by a zero error, whatever the previous error. */
  lemma NeverConverges(prev: Extended, tol: real)
    requires tol <= 0.0
    ensures !Converged(prev, 0.0, tol)
  {
  }

  /** On the snapshots of layout `L` the pass yields `o`. */
  ghost predicate Yields(ctx: Context, L: Layout, o: Outcome, p: Snapshot) {
    Admissible(p) && p.layout == L && p.cfg == ctx.cfg ==> ctx.pass.requires(p) && ctx.pass(p) == o
  }

  /**
   * With a tolerance that is not positive, an iteration that reaches a pass
   * stopping at a fault ends the loop there.
   */
  lemma UndefinedAtFirstPass(ctx: Context, L: Layout, cur: KinState, prev: Extended, iter: nat, budget: nat, f: Fault)
    requires ValidContext(ctx, |L.eefPos|) && Allocated(L) && L.jntQ.rows == |ctx.cfg.activeDofs|
    requires BuildReady(ctx.cfg, ctx.desired, ctx.withMomentum, L)
    requires ValidState(cur, ctx.cfg, |L.eefPos|)
    requires forall p :: Yields(ctx, L, Undefined(f), p)
    requires budget > 0 && ctx.cfg.tolerance <= 0.0
    ensures Loop(ctx, L, cur, prev, iter, budget) == Run(ctx.refresh(cur).state, L, [], UndefinedAt(iter, f))
  {
    assert Preserves(ctx, cur, |L.eefPos|);
    var updated := ctx.refresh(cur);
    ErrorIsZero(ctx.cfg, updated.state, ctx.desired);
    NeverConverges(prev, ctx.cfg.tolerance);
    var p := Snapshot(ctx.cfg, L, updated.state, ctx.start, ctx.desired, updated.jac, ctx.withMomentum);
    assert Yields(ctx, L, Undefined(f), p);
  }

  /** One iteration whose pass throws: caught, and the loop goes on from the refreshed state. */
  lemma RecoverStep(ctx: Context, L: Layout, cur: KinState, prev: Extended, iter: nat, budget: nat, t: Thrown)
    requires ValidContext(ctx, |L.eefPos|) && Allocated(L) && L.jntQ.rows == |ctx.cfg.activeDofs|
    requires BuildReady(ctx.cfg, ctx.desired, ctx.withMomentum, L)
    requires ValidState(cur, ctx.cfg, |L.eefPos|)
    requires forall p :: Yields(ctx, L, Caught(t), p)
    requires budget > 0 && ctx.cfg.tolerance <= 0.0
    ensures ValidState(ctx.refresh(cur).state, ctx.cfg, |L.eefPos|)
    ensures var rest := Loop(ctx, L, ctx.refresh(cur).state, Finite(0.0), iter + 1, budget - 1);
            Loop(ctx, L, cur, prev, iter, budget) == rest.(steps := [Recovered(t)] + rest.steps)
  {
    assert Preserves(ctx, cur, |L.eefPos|);
    var updated := ctx.refresh(cur);
    ErrorIsZero(ctx.cfg, updated.state, ctx.desired);
    NeverConverges(prev, ctx.cfg.tolerance);
    var p := Snapshot(ctx.cfg, L, updated.state, ctx.start, ctx.desired, updated.jac, ctx.withMomentum);
    assert Yields(ctx, L, Caught(t), p);
  }

  /**
   * With a tolerance that is not positive and a pass that always throws, the
   * exception is caught each time and the loop runs its whole budget,
   * refreshing the state and leaving the blocks as they were.
   */
  lemma {:induction false} RecoversThroughout(ctx: Context, L: Layout, cur: KinState, prev: Extended, iter: nat, budget: nat, t: Thrown)
    requires ValidContext(ctx, |L.eefPos|) && Allocated(L) && L.jntQ.rows == |ctx.cfg.activeDofs|
    requires BuildReady(ctx.cfg, ctx.desired, ctx.withMomentum, L)
    requires ValidState(cur, ctx.cfg, |L.eefPos|)
    requires forall p :: Yields(ctx, L, Caught(t), p)
    requires ctx.cfg.tolerance <= 0.0
    ensures var r := Loop(ctx, L, cur, prev, iter, budget);
            && r.state == Iterate(ctx.refresh, cur, budget) && r.layout == L && r.halt == Exhausted
            && |r.steps| == budget && forall i :: 0 <= i < budget ==> r.steps[i] == Recovered(t)
    decreases budget
  {
    if budget > 0 {
      RecoverStep(ctx, L, cur, prev, iter, budget, t);
      var next := ctx.refresh(cur).state;
      RecoversThroughout(ctx, L, next, Finite(0.0), iter + 1, budget - 1, t);
      var rest := Loop(ctx, L, next, Finite(0.0), iter + 1, budget - 1);
      var r := Loop(ctx, L, cur, prev, iter, budget);
      forall i | 0 < i < budget ensures r.steps[i] == Recovered(t) {
        assert r.steps[i] == rest.steps[i - 1];
      }
    }
  }

  /** What the try block yields for a layout, whatever the refreshed state and matrices. */
  function PassOutcome(cfg: Setting, L: Layout): (o: Outcome)
    requires Allocated(L)
    ensures o.Caught? <==> !KindsHandled(L)
    ensures o.Caught? ==> o.reason.UnknownVariableType?
    ensures o.Undefined? ==> o.fault == RowOutOfRange(JointVelocity, |cfg.activeDofs|)
  {
    AddVariablesSucceeds(L);
    match AddVariables(L)
    case Failure(t) => Caught(t)
    case Success(_) => Undefined(RowOutOfRange(JointVelocity, |cfg.activeDofs|))
  }

  /** The try block against any solver yields `PassOutcome` on every well-formed snapshot of the layout. */
  lemma PassYields(ctx: Context, solver: Qp -> SolverReply, L: Layout)
    requires Allocated(L) && ctx.pass == Pass(solver)
    ensures forall p :: Yields(ctx, L, PassOutcome(ctx.cfg, L), p)
  {
    forall p ensures Yields(ctx, L, PassOutcome(ctx.cfg, L), p) {
      if Admissible(p) && p.layout == L && p.cfg == ctx.cfg {
        AttemptOutcome(p, solver);
      }
    }
  }

  /** The pass of `optimizePosture`: the try block against the given solver. */
  function Pass(solver: Qp -> SolverReply): (pass: Snapshot --> Outcome)
    ensures forall p :: Admissible(p) ==> pass.requires(p) && pass(p) == Attempt(p, solver)
  {
    p requires Admissible(p) => Attempt(p, solver)
  }

  /** The context `optimizePosture` runs its loop in; the state at entry is `start_state`. */
  function Setup(cfg: Setting, cur: KinState, desired: DynState, withMomentum: bool,
                 refresh: KinState -> Refreshed, solver: Qp -> SolverReply): Context
  {
    Context(cfg, desired, cur, withMomentum, refresh, Pass(solver))
  }

  /** The context is well formed when the settings, states and provider are. */
  lemma SetupValid(cfg: Setting, cur: KinState, desired: DynState, withMomentum: bool,
                   refresh: KinState -> Refreshed, solver: Qp -> SolverReply, numEffs: nat)
    requires ValidSetting(cfg, numEffs) && ValidState(cur, cfg, numEffs) && ValidTarget(desired, numEffs)
    requires forall s :: ValidState(s, cfg, numEffs) ==> ValidState(refresh(s).state, cfg, numEffs)
    ensures ValidContext(Setup(cfg, cur, desired, withMomentum, refresh, solver), numEffs)
  {
    var ctx := Setup(cfg, cur, desired, withMomentum, refresh, solver);
    forall s ensures Preserves(ctx, s, numEffs) {
    }
    forall p ensures Accepts(ctx, p) {
    }
  }

  /** The four ways the loop of `optimizePosture` can end, from its entry state. */
  lemma RunOutcome(ctx: Context, solver: Qp -> SolverReply, L: Layout, cur: KinState)
    requires ValidContext(ctx, |L.eefPos|) && Allocated(L) && L.jntQ.rows == |ctx.cfg.activeDofs|
    requires BuildReady(ctx.cfg, ctx.desired, ctx.withMomentum, L)
    requires ValidState(cur, ctx.cfg, |L.eefPos|) && ctx.pass == Pass(solver)
    ensures var r := Loop(ctx, L, cur, PosInf, 0, Budget(ctx.cfg));
            && (Budget(ctx.cfg) == 0 ==> r == Run(cur, L, [], Exhausted))
            && (Budget(ctx.cfg) > 0 && ctx.cfg.tolerance > 0.0 ==> r == Run(ctx.refresh(cur).state, L, [], ConvergedAt(0)))
            && (Budget(ctx.cfg) > 0 && ctx.cfg.tolerance <= 0.0 && KindsHandled(L) ==>
                  r == Run(ctx.refresh(cur).state, L, [], UndefinedAt(0, RowOutOfRange(JointVelocity, |ctx.cfg.activeDofs|))))
            && (ctx.cfg.tolerance <= 0.0 && !KindsHandled(L) ==>
                  && r.state == Iterate(ctx.refresh, cur, Budget(ctx.cfg)) && r.layout == L && r.halt == Exhausted
                  && |r.steps| == Budget(ctx.cfg)
                  && forall i :: 0 <= i < |r.steps| ==> r.steps[i] == Recovered(PassOutcome(ctx.cfg, L).reason))
  {
    var budget := Budget(ctx.cfg);
    PassYields(ctx, solver, L);
    if budget > 0 && ctx.cfg.tolerance > 0.0 {
      ConvergesAtOnce(ctx, L, cur, PosInf, 0, budget);
    } else if budget > 0 && KindsHandled(L) {
      UndefinedAtFirstPass(ctx, L, cur, PosInf, 0, budget, PassOutcome(ctx.cfg, L).fault);
    } else if ctx.cfg.tolerance <= 0.0 && !KindsHandled(L) {
      RecoversThroughout(ctx, L, cur, PosInf, 0, budget, PassOutcome(ctx.cfg, L).reason);
    }
  }

  /**
   * `optimizePosture(current_state, desired_state, is_not_initial_state, include_torque_limits)`.
   * Every run ends in one of four ways, none of which reaches the solver:
   * no iteration at all; convergence at the first test when the tolerance is
   * positive (the error is always zero); otherwise, a fault in the first
   * pass when every block has a handled type, or a caught exception in every
   * pass until the budget is spent.
   */
  function OptimizePosture(cfg: Setting, L: Layout, cur: KinState, desired: DynState, withMomentum: bool,
                           refresh: KinState -> Refreshed, solver: Qp -> SolverReply): (r: Run)
    requires ValidContext(Setup(cfg, cur, desired, withMomentum, refresh, solver), |L.eefPos|)
    requires Allocated(L) && L.jntQ.rows == |cfg.activeDofs|
    requires BuildReady(cfg, desired, withMomentum, L)
    ensures Budget(cfg) == 0 ==> r == Run(cur, L, [], Exhausted)
    ensures Budget(cfg) > 0 && cfg.tolerance > 0.0 ==> r == Run(refresh(cur).state, L, [], ConvergedAt(0))
    ensures Budget(cfg) > 0 && cfg.tolerance <= 0.0 && KindsHandled(L) ==>
              r == Run(refresh(cur).state, L, [], UndefinedAt(0, RowOutOfRange(JointVelocity, |cfg.activeDofs|)))
    ensures cfg.tolerance <= 0.0 && !KindsHandled(L) ==>
              && r.state == Iterate(refresh, cur, Budget(cfg)) && r.layout == L && r.halt == Exhausted
              && |r.steps| == Budget(cfg)
              && forall i :: 0 <= i < |r.steps| ==> r.steps[i] == Recovered(PassOutcome(cfg, L).reason)
  {
    var ctx := Setup(cfg, cur, desired, withMomentum, refresh, solver);
    RunOutcome(ctx, solver, L, cur);
    Loop(ctx, L, cur, PosInf, 0, Budget(cfg))
  }

  /** The solver is never reached: no pass commits, and the blocks keep their guesses. */
  lemma NeverSolves(cfg: Setting, L: Layout, cur: KinState, desired: DynState, withMomentum: bool,
                    refresh: KinState -> Refreshed, solver: Qp -> SolverReply)
    requires ValidContext(Setup(cfg, cur, desired, withMomentum, refresh, solver), |L.eefPos|)
    requires Allocated(L) && L.jntQ.rows == |cfg.activeDofs|
    requires BuildReady(cfg, desired, withMomentum, L)
    ensures var r := OptimizePosture(cfg, L, cur, desired, withMomentum, refresh, solver);
            r.layout == L && forall i :: 0 <= i < |r.steps| ==> r.steps[i].Recovered?
  {
  }

  /**
   * The `is_not_initial_state` flag changes the objective (the momentum
   * terms) but never the outcome of a run.
   */
  lemma MomentumFlagUnobservable(cfg: Setting, L: Layout, cur: KinState, desired: DynState,
                                 refresh: KinState -> Refreshed, solver: Qp -> SolverReply)
    requires ValidContext(Setup(cfg, cur, desired, true, refresh, solver), |L.eefPos|)
    requires ValidContext(Setup(cfg, cur, desired, false, refresh, solver), |L.eefPos|)
    requires Allocated(L) && L.jntQ.rows == |cfg.activeDofs|
    requires BuildReady(cfg, desired, true, L)
    ensures OptimizePosture(cfg, L, cur, desired, true, refresh, solver)
            == OptimizePosture(cfg, L, cur, desired, false, refresh, solver)
  {
    var r1 := OptimizePosture(cfg, L, cur, desired, true, refresh, solver);
    var r2 := OptimizePosture(cfg, L, cur, desired, false, refresh, solver);
    if cfg.tolerance <= 0.0 && !KindsHandled(L) {
      assert r1.steps == r2.steps;
    }
  }

  /**
   * `optimize(ini_state, dyn_sequence, is_not_first_kindyn_iteration)`: one
   * posture run on the stored current state towards `ini_state`, with the
   * momentum terms off; the last flag is handed on as `include_torque_limits`,
   * which the run does not read.
   */
  function Optimize(cfg: Setting, L: Layout, cur: KinState, ini: DynState, notFirst: bool,
                    refresh: KinState -> Refreshed, solver: Qp -> SolverReply): (r: Run)
    requires ValidContext(Setup(cfg, cur, ini, false, refresh, solver), |L.eefPos|)
    requires Allocated(L) && L.jntQ.rows == |cfg.activeDofs|
    requires BuildReady(cfg, ini, false, L)
    ensures r.layout == L && forall i :: 0 <= i < |r.steps| ==> r.steps[i].Recovered?
    ensures KindsHandled(L) ==>
              && r.steps == []
              && (r.halt == Exhausted || r.halt == ConvergedAt(0)
                  || r.halt == UndefinedAt(0, RowOutOfRange(JointVelocity, |cfg.activeDofs|)))
  {
    NeverSolves(cfg, L, cur, ini, false, refresh, solver);
    OptimizePosture(cfg, L, cur, ini, false, refresh, solver)
  }

  /**
   * `optimize` on the blocks `initializeKinematicVariables` allocates, from
   * plain well-formed settings, states and provider: no pass is ever caught,
   * and the run ends without an iteration, converged at the first test, or at
   * the `jnt_qd_` fault of the first pass.
   */
  lemma OptimizeInitialized(cfg: Setting, numEffs: nat, inf: real, cur: KinState, ini: DynState, notFirst: bool,
                            refresh: KinState -> Refreshed, solver: Qp -> SolverReply)
    requires ValidSetting(cfg, numEffs) && ValidState(cur, cfg, numEffs) && ValidTarget(ini, numEffs)
    requires forall s :: ValidState(s, cfg, numEffs) ==> ValidState(refresh(s).state, cfg, numEffs)
    requires cfg.tolerance <= 0.0 ==> cfg.mass != 0.0
    ensures ValidContext(Setup(cfg, cur, ini, false, refresh, solver), numEffs)
    ensures var L := InitializeVariables(numEffs, |cfg.activeDofs|, inf);
            var r := Optimize(cfg, L, cur, ini, notFirst, refresh, solver);
            && r.layout == L && r.steps == []
            && (Budget(cfg) == 0 ==> r.halt == Exhausted && r.state == cur)
            && (Budget(cfg) > 0 && cfg.tolerance > 0.0 ==> r.halt == ConvergedAt(0) && r.state == refresh(cur).state)
            && (Budget(cfg) > 0 && cfg.tolerance <= 0.0 ==>
                  r.halt == UndefinedAt(0, RowOutOfRange(JointVelocity, |cfg.activeDofs|)) && r.state == refresh(cur).state)
  {
    SetupValid(cfg, cur, ini, false, refresh, solver, numEffs);
    var L := InitializeVariables(numEffs, |cfg.activeDofs|, inf);
    InitializedHandled(numEffs, |cfg.activeDofs|, inf);
    var r := OptimizePosture(cfg, L, cur, ini, false, refresh, solver);
    assert Optimize(cfg, L, cur, ini, notFirst, refresh, solver) == r;
  }
}

=== FILE: problem.dfy ===
/**
 * What one build of the posture QP reads (`Snapshot`), how a build stops when
 * it indexes past the end of a block or of the active-dof list (`Fault`), and
 * the constraints it has added to the backend model by then (`Emission`).
 */
module Problem {
  import opened Common
  import opened Variables
  import opened Linear
  import opened Robot

  /**
   * The inputs of one pass through the try block of `optimizePosture`:
   * settings, variable blocks, the refreshed current state, the state at
   * entry (`start_state`), the target, the provider's matrices, and the
   * `is_not_initial_state` flag.
   */
  datatype Snapshot = Snapshot(
    cfg: Setting,
    layout: Layout,
    current: KinState,
    start: KinState,
    desired: DynState,
    jac: Jacobians,
    withMomentum: bool)

  function NumEffs(p: Snapshot): nat {
    |p.layout.eefPos|
  }

  function Dofs(p: Snapshot): nat {
    |p.cfg.activeDofs|
  }

  function Dt(p: Snapshot): real {
    p.desired.time
  }

  /** The blocks, settings and states have the sizes the build indexes them at. */
  predicate Shaped(p: Snapshot) {
    var m := |p.layout.eefPos|;
    && Allocated(p.layout)
    && p.layout.jntQ.rows == |p.cfg.activeDofs|
    && ValidSetting(p.cfg, m)
    && ValidState(p.current, p.cfg, m)
    && ValidState(p.start, p.cfg, m)
    && ValidTarget(p.desired, m)
  }

  /** What the joint constraints need: the sizes, and a time step and mass to divide by. */
  predicate Valid(p: Snapshot) {
    Shaped(p) && Nondegenerate(p.cfg, p.desired)
  }

  /**
   * An index the source reads outside the object it indexes: a block row
   * beyond the block's rows, or an entry past the end of ActiveDofs. What
   * such a read yields is not shown (`id` is defined outside this model);
   * the model stops the build there. Every build stops in the com-rate row
   * whatever the read yields (`Constraints.RateRowStopsWhateverId`); only
   * which read is reported first depends on this choice.
   */
  datatype Fault = RowOutOfRange(tag: Tag, row: nat) | ActiveDofOutOfRange(index: nat)

  /** `vars_[b.id(row, 0)]`, as a flat index. */
  function Lookup(b: Block, row: nat): (r: Result<nat, Fault>)
    ensures r.Success? <==> row < b.rows
    ensures r.Success? ==> r.value == b.base + row
    ensures r.Failure? ==> r.error == RowOutOfRange(b.tag, row)
  {
    if row < b.rows then Success(Id(b, row)) else Failure(RowOutOfRange(b.tag, row))
  }

  /** `ActiveDofs[dof]`. */
  function ActiveDof(cfg: Setting, dof: nat): (r: Result<nat, Fault>)
    ensures r.Success? <==> dof < |cfg.activeDofs|
    ensures r.Success? ==> r.value == cfg.activeDofs[dof]
  {
    if dof < |cfg.activeDofs| then Success(cfg.activeDofs[dof]) else Failure(ActiveDofOutOfRange(dof))
  }

  /** The constraints added to the model, in order, and the fault that stopped the build, if any. */
  datatype Emission = Emission(out: seq<Constr>, fault: Option<Fault>)

  function Emit(c: Constr): Emission {
    Emission([c], None)
  }

  function Nothing(): Emission {
    Emission([], None)
  }

  /**
   * Runs `b` after `a` only when `a` did not stop at a fault, as statements
   * run one after another: what `b` needs is needed only once `a` finishes.
   */
  function ThenIfReached(a: Emission, b: () --> Emission): (r: Emission)
    requires a.fault.None? ==> b.requires()
    ensures a.fault.Some? ==> r == a
    ensures a.fault.None? ==> r == Then(a, b())
  {
    if a.fault.Some? then a else Then(a, b())
  }

  /** Runs `b` after `a`, unless `a` stopped at a fault. */
  function Then(a: Emission, b: Emission): (r: Emission)
    ensures a.fault.Some? ==> r == a
    ensures a.fault.None? ==> r.out == a.out + b.out && r.fault == b.fault
  {
    if a.fault.Some? then a else Emission(a.out + b.out, b.fault)
  }

  /** `model_.addLinConstr(expr, "=", 0.0)` once `expr` is built, or the fault met while building it. */
  function EmitZero(expr: Result<LinExpr, Fault>): Emission {
    match expr
    case Success(e) => Emit(Constr(e, Eq, 0.0))
    case Failure(f) => Emission([], Some(f))
  }
}

=== FILE: robot.dfy ===
/**
 * The planner configuration, the kinematic state being optimised, the desired
 * dynamics state, and the matrices the kinematics provider supplies.
 */
module Robot {
  import opened Common

  /** The planner settings the posture optimiser reads; never changed by it. */
  datatype Setting = Setting(
    maxIterations: int,          // MaxKinConvergenceIterations
    tolerance: real,             // KinConvergenceTolerance
    activeDofs: seq<nat>,        // ActiveDofs; NumActiveDofs is its length
    numDofs: nat,                // NumDofs
    numActiveEffs: int,          // NumActiveEndeffectors
    wCom: Vec3,                  // WeightKinematicTrackingCenterOfMass
    wLinMom: Vec3,               // WeightKinematicTrackingLinearMomentum
    wAngMom: Vec3,               // WeightKinematicTrackingAngularMomentum
    wLinMomRate: Vec3,           // WeightKinematicTrackingLinearMomentumRate
    wAngMomRate: Vec3,           // WeightKinematicTrackingAngularMomentumRate
    wEefPos: Vec3,               // WeightKinematicTrackingEndeffectorPosition
    wDefaultPosture: seq<real>,  // WeightKinematicDefaultJointPositions
    defaultPosture: seq<real>,   // KinematicDefaultJointPositions
    wJointVel: seq<real>,        // WeightJointVelocity
    wJointAcc: seq<real>,        // WeightJointAcceleration
    minAngles: seq<real>,        // MinJointAngles
    maxAngles: seq<real>,        // MaxJointAngles
    mass: real)                  // RobotMass

  function NumActiveDofs(cfg: Setting): nat {
    |cfg.activeDofs|
  }

  /**
   * The vectors are as long as the indices the optimiser reads them at, for a
   * robot with `numEffs` end-effectors.
   */
  predicate ValidSetting(cfg: Setting, numEffs: nat) {
    var n := |cfg.activeDofs|;
    && cfg.numActiveEffs <= numEffs
    && (forall d :: 0 <= d < n ==> cfg.activeDofs[d] < cfg.numDofs)
    && |cfg.defaultPosture| >= cfg.numDofs
    && |cfg.minAngles| >= cfg.numDofs
    && |cfg.maxAngles| >= cfg.numDofs
    && |cfg.wDefaultPosture| + 6 >= n
    && |cfg.wJointVel| >= n
    && |cfg.wJointAcc| >= n
  }

  /** The `KinematicsState` fields the optimiser reads or writes. */
  datatype KinState = KinState(
    com: Vec3,
    linMom: Vec3,
    angMom: Vec3,
    eefPos: seq<Vec3>,
    jointPositions: seq<real>,   // robotPosture().jointPositions()
    genVelocities: seq<real>,    // robotVelocity().generalizedJointVelocities()
    jointVelocities: seq<real>)  // robotVelocity().jointVelocities()

  predicate ValidState(s: KinState, cfg: Setting, numEffs: nat) {
    && |s.eefPos| >= numEffs
    && |s.jointPositions| >= cfg.numDofs
    && |s.genVelocities| >= 6
    && |s.jointVelocities| >= cfg.numDofs
  }

  /** The `DynamicsState` fields the optimiser reads: the target and the time step. */
  datatype DynState = DynState(
    com: Vec3,
    linMom: Vec3,
    angMom: Vec3,
    eefPos: seq<Vec3>,
    eefActive: seq<bool>,        // endeffectorActivation
    time: real)

  predicate ValidTarget(d: DynState, numEffs: nat) {
    |d.eefPos| >= numEffs && |d.eefActive| >= numEffs
  }

  /**
   * The build divides by the time step and by the robot mass; the model reads
   * those quotients as real numbers, so both must be non-zero for the
   * constraints that divide by them.
   */
  predicate Nondegenerate(cfg: Setting, d: DynState) {
    cfg.mass != 0.0 && d.time != 0.0
  }

  /**
   * The divisors of the quotients a build forms before it stops: the mass in
   * the center-of-mass integration, and the time step in the momentum-rate
   * terms, which only `is_not_initial_state` adds.
   */
  predicate Divisible(cfg: Setting, d: DynState, withMomentum: bool) {
    cfg.mass != 0.0 && (withMomentum ==> d.time != 0.0)
  }

  /**
   * The kinematics provider's matrices at the current linearisation point:
   * the centroidal momentum matrix and each end-effector's Jacobian, as
   * opaque entry functions (row, column) and (effector, row, column).
   */
  datatype Jacobians = Jacobians(cmm: (nat, nat) -> real, eef: (nat, nat, nat) -> real)
}

=== FILE: variables.dfy ===
/**
 * Optimisation variable blocks and the flat variable layout of the posture
 * optimiser (`initializeKinematicVariables`, `saveSolution`).
 *
 * Every block of this core has one column, so a block is a run of `rows`
 * consecutive flat indices starting at `base`; `Id(b, row) == base + row`.
 */
module Variables {
  import opened Common

  /** Which kinematic quantity a block holds. */
  datatype Tag =
    | CenterOfMass | CenterOfMassRate | LinearMomentum | AngularMomentum
    | EndeffectorPosition(eff: nat) | EndeffectorVelocity(eff: nat)
    | JointPosition | JointVelocity | TotalVelocity | TotalAcceleration

  /**
   * One single-column optimisation variable: `rows` slots of kind `kind`
   * ('C' continuous, 'B' binary) with uniform bounds, the first slot at flat
   * index `base`, and the cached solution used as the next warm start.
   */
  datatype Block = Block(tag: Tag, kind: char, rows: nat, lb: real, ub: real, base: nat, guess: seq<real>)

  function End(b: Block): nat {
    b.base + b.rows
  }

  predicate Owns(b: Block, k: nat) {
    b.base <= k < End(b)
  }

  predicate Disjoint(b1: Block, b2: Block) {
    End(b1) <= b2.base || End(b2) <= b1.base
  }

  /** The flat index of a row of a block. */
  function Id(b: Block, row: nat): (k: nat)
    requires row < b.rows
    ensures Owns(b, k) && k - b.base == row
  {
    b.base + row
  }

  function Zeros(n: nat): (z: seq<real>)
    ensures |z| == n && forall i :: 0 <= i < n ==> z[i] == 0.0
  {
    seq(n, _ => 0.0)
  }

  /** `initialize(kind, rows, 1, lb, ub, counter)`: claims the next `rows` slots and advances the counter. */
  function Allocate(tag: Tag, kind: char, rows: nat, lb: real, ub: real, counter: nat): (Block, nat) {
    (Block(tag, kind, rows, lb, ub, counter, Zeros(rows)), counter + rows)
  }

  /** `saveSolution`: each row's cached guess becomes the solution at that row's flat index. */
  function SaveSolution(b: Block, solution: seq<real>): (r: Block)
    requires End(b) <= |solution|
    ensures |r.guess| == b.rows
    ensures forall row :: 0 <= row < b.rows ==> r.guess[row] == solution[Id(b, row)]
    ensures r.(guess := b.guess) == b
  {
    b.(guess := seq(b.rows, row requires 0 <= row < b.rows => solution[Id(b, row)]))
  }

  /** Saving back exactly the guesses a block already holds leaves it as it was. */
  lemma SaveOwnGuess(b: Block, solution: seq<real>)
    requires End(b) <= |solution| && |b.guess| == b.rows
    requires forall row :: 0 <= row < b.rows ==> solution[Id(b, row)] == b.guess[row]
    ensures SaveSolution(b, solution) == b
  {
    var r := SaveSolution(b, solution);
    forall row | 0 <= row < b.rows
      ensures r.guess[row] == b.guess[row]
    {
      assert solution[Id(b, row)] == b.guess[row];
    }
  }

  /** The optimiser's variable blocks, one member per block in the source. */
  datatype Layout = Layout(
    com: Block, comd: Block, lmom: Block, amom: Block,
    eefPos: seq<Block>, eefVel: seq<Block>,
    jntQ: Block, jntQd: Block, totalQd: Block, totalQdd: Block,
    numVars: nat)

  function NumEndeffectors(L: Layout): nat {
    |L.eefPos|
  }

  function NumActiveDofs(L: Layout): nat {
    L.jntQ.rows
  }

  predicate Placed(b: Block, tag: Tag, rows: nat, base: nat) {
    b.tag == tag && b.rows == rows && b.base == base && |b.guess| == rows
  }

  /**
   * The shape `initializeKinematicVariables` gives the blocks, whatever their
   * kinds, bounds and cached guesses.
   */
  predicate Allocated(L: Layout) {
    var m := |L.eefPos|;
    var n := L.jntQ.rows;
    && Placed(L.com, CenterOfMass, 3, 0)
    && Placed(L.comd, CenterOfMassRate, 3, 3)
    && Placed(L.lmom, LinearMomentum, 3, 6)
    && Placed(L.amom, AngularMomentum, 3, 9)
    && |L.eefVel| == m
    && (forall e :: 0 <= e < m ==> Placed(L.eefPos[e], EndeffectorPosition(e), 3, 12 + 6 * e))
    && (forall e :: 0 <= e < m ==> Placed(L.eefVel[e], EndeffectorVelocity(e), 3, 15 + 6 * e))
    && Placed(L.jntQ, JointPosition, n, 12 + 6 * m)
    && Placed(L.jntQd, JointVelocity, n, 12 + 6 * m + n)
    && Placed(L.totalQd, TotalVelocity, n, 12 + 6 * m + 2 * n)
    && Placed(L.totalQdd, TotalAcceleration, n, 12 + 6 * m + 3 * n)
    && L.numVars == 12 + 6 * m + 4 * n
  }

  /** Pairs the end-effector blocks as they were allocated: position then velocity, per end-effector. */
  function Interleave(pos: seq<Block>, vel: seq<Block>): (r: seq<Block>)
    requires |pos| == |vel|
    ensures |r| == 2 * |pos|
  {
    if |pos| == 0 then [] else [pos[0], vel[0]] + Interleave(pos[1..], vel[1..])
  }

  /** The blocks in the order they were allocated. */
  function Blocks(L: Layout): seq<Block>
    requires |L.eefPos| == |L.eefVel|
  {
    [L.com, L.comd, L.lmom, L.amom] + Interleave(L.eefPos, L.eefVel) + [L.jntQ, L.jntQd, L.totalQd, L.totalQdd]
  }

  /** The blocks occupy `[start, stop)` one after another, each starting where the previous one ends. */
  predicate Chained(bs: seq<Block>, start: nat, stop: nat) {
    && (|bs| == 0 ==> start == stop)
    && (|bs| > 0 ==> bs[0].base == start && End(bs[|bs| - 1]) == stop)
    && (forall i :: 0 < i < |bs| ==> bs[i].base == End(bs[i - 1]))
  }

  predicate PairwiseDisjoint(bs: seq<Block>) {
    forall i, j :: 0 <= i < j < |bs| ==> Disjoint(bs[i], bs[j])
  }

  /** Two different blocks of the list never share a slot (the order-free form of `PairwiseDisjoint`). */
  predicate Separated(bs: seq<Block>) {
    forall b1, b2 :: b1 in bs && b2 in bs && b1 != b2 ==> Disjoint(b1, b2)
  }

  predicate OwnedIn(bs: seq<Block>, k: nat) {
    exists b :: b in bs && Owns(b, k)
  }

  predicate Covers(bs: seq<Block>, start: nat, stop: nat) {
    forall k :: start <= k < stop ==> OwnedIn(bs, k)
  }

  /** `initializeKinematicVariables` for `numEffs` end-effectors and `numActive` active dofs. */
  function InitializeVariables(numEffs: nat, numActive: nat, inf: real): (L: Layout)
    ensures Allocated(L) && NumEndeffectors(L) == numEffs && NumActiveDofs(L) == numActive
    ensures L.numVars == 12 + 6 * numEffs + 4 * numActive
    ensures forall b :: b in Blocks(L) ==> b.kind == 'C' && b.lb == -inf && b.ub == inf && b.guess == Zeros(b.rows)
  {
    var com := Allocate(CenterOfMass, 'C', 3, -inf, inf, 0).0;
    var comd := Allocate(CenterOfMassRate, 'C', 3, -inf, inf, End(com)).0;
    var lmom := Allocate(LinearMomentum, 'C', 3, -inf, inf, End(comd)).0;
    var amom := Allocate(AngularMomentum, 'C', 3, -inf, inf, End(lmom)).0;
    var effs := AllocateEndeffectors(0, numEffs, inf, End(amom));
    var q := Allocate(JointPosition, 'C', numActive, -inf, inf, effs.2).0;
    var qd := Allocate(JointVelocity, 'C', numActive, -inf, inf, End(q)).0;
    var tqd := Allocate(TotalVelocity, 'C', numActive, -inf, inf, End(qd)).0;
    var tqdd := Allocate(TotalAcceleration, 'C', numActive, -inf, inf, End(tqd)).0;
    var L := Layout(com, comd, lmom, amom, effs.0, effs.1, q, qd, tqd, tqdd, End(tqdd));
    InitialBlocks(L, inf);
    L
  }

  lemma InitialBlocks(L: Layout, inf: real)
    requires |L.eefPos| == |L.eefVel|
    requires forall b :: b in L.eefPos ==> b.kind == 'C' && b.lb == -inf && b.ub == inf && b.guess == Zeros(b.rows)
    requires forall b :: b in L.eefVel ==> b.kind == 'C' && b.lb == -inf && b.ub == inf && b.guess == Zeros(b.rows)
    requires forall b :: b in [L.com, L.comd, L.lmom, L.amom, L.jntQ, L.jntQd, L.totalQd, L.totalQdd] ==>
               b.kind == 'C' && b.lb == -inf && b.ub == inf && b.guess == Zeros(b.rows)
    ensures forall b :: b in Blocks(L) ==> b.kind == 'C' && b.lb == -inf && b.ub == inf && b.guess == Zeros(b.rows)
  {
    InterleaveMembers(L.eefPos, L.eefVel);
  }

  /** The end-effector loop of `initializeKinematicVariables`, from effector `eff` on. */
  function AllocateEndeffectors(eff: nat, count: nat, inf: real, counter: nat): (r: (seq<Block>, seq<Block>, nat))
    requires eff <= count
    decreases count - eff
    ensures |r.0| == count - eff && |r.1| == count - eff
    ensures r.2 == counter + 6 * (count - eff)
    ensures forall i :: 0 <= i < count - eff ==> Placed(r.0[i], EndeffectorPosition(eff + i), 3, counter + 6 * i)
    ensures forall i :: 0 <= i < count - eff ==> Placed(r.1[i], EndeffectorVelocity(eff + i), 3, counter + 6 * i + 3)
    ensures forall b :: b in r.0 ==> b.kind == 'C' && b.lb == -inf && b.ub == inf && b.guess == Zeros(b.rows)
    ensures forall b :: b in r.1 ==> b.kind == 'C' && b.lb == -inf && b.ub == inf && b.guess == Zeros(b.rows)
  {
    if eff == count then ([], [], counter)
    else
      var (p, c1) := Allocate(EndeffectorPosition(eff), 'C', 3, -inf, inf, counter);
      var (v, c2) := Allocate(EndeffectorVelocity(eff), 'C', 3, -inf, inf, c1);
      var (ps, vs, c3) := AllocateEndeffectors(eff + 1, count, inf, c2);
      assert forall i :: 0 < i < count - eff ==> ([p] + ps)[i] == ps[i - 1];
      assert forall i :: 0 < i < count - eff ==> ([v] + vs)[i] == vs[i - 1];
      ([p] + ps, [v] + vs, c3)
  }

  lemma {:induction false} InterleaveMembers(pos: seq<Block>, vel: seq<Block>)
    requires |pos| == |vel|
    ensures forall b :: b in Interleave(pos, vel) <==> b in pos || b in vel
    decreases |pos|
  {
    if |pos| > 0 {
      InterleaveMembers(pos[1..], vel[1..]);
      assert pos == [pos[0]] + pos[1..];
      assert vel == [vel[0]] + vel[1..];
    }
  }

  /** Position `2e` of the interleaving is effector `e`'s position block, `2e + 1` its velocity block. */
  lemma {:induction false} InterleaveAt(pos: seq<Block>, vel: seq<Block>, e: nat)
    requires |pos| == |vel| && e < |pos|
    ensures Interleave(pos, vel)[2 * e] == pos[e] && Interleave(pos, vel)[2 * e + 1] == vel[e]
    decreases e
  {
    if e > 0 {
      InterleaveAt(pos[1..], vel[1..], e - 1);
    }
  }

  lemma ChainedAppend(a: seq<Block>, b: seq<Block>, start: nat, mid: nat, stop: nat)
    requires Chained(a, start, mid) && Chained(b, mid, stop)
    ensures Chained(a + b, start, stop)
  {
    var ab := a + b;
    forall i | 0 < i < |ab|
      ensures ab[i].base == End(ab[i - 1])
    {
      if i < |a| {
      } else if i == |a| {
        assert ab[i] == b[0];
        if |a| == 0 { assert false; }
      } else {
        assert ab[i] == b[i - |a|] && ab[i - 1] == b[i - 1 - |a|];
      }
    }
  }

  /** The end-effector blocks sit one after another from 12 to `12 + 6 * NumEndeffectors`. */
  lemma EndeffectorsChained(L: Layout)
    requires Allocated(L)
    ensures Chained(Interleave(L.eefPos, L.eefVel), 12, 12 + 6 * |L.eefPos|)
  {
    var m := |L.eefPos|;
    var il := Interleave(L.eefPos, L.eefVel);
    forall i | 0 <= i < |il|
      ensures il[i].base == 12 + 3 * i && il[i].rows == 3
    {
      InterleaveAt(L.eefPos, L.eefVel, i / 2);
    }
    if m > 0 {
      assert End(il[|il| - 1]) == 12 + 3 * (2 * m - 1) + 3;
    }
  }

  /** In a chain, an earlier block ends no later than a later block starts. */
  lemma {:induction false} ChainedOrdered(bs: seq<Block>, start: nat, stop: nat, i: nat, j: nat)
    requires Chained(bs, start, stop) && i < j < |bs|
    ensures End(bs[i]) <= bs[j].base
    decreases j - i
  {
    if i + 1 < j {
      ChainedOrdered(bs, start, stop, i + 1, j);
    }
  }

  lemma ChainedBounds(bs: seq<Block>, start: nat, stop: nat)
    requires Chained(bs, start, stop)
    ensures PairwiseDisjoint(bs)
    ensures forall i :: 0 <= i < |bs| ==> start <= bs[i].base && End(bs[i]) <= stop
  {
    forall i, j | 0 <= i < j < |bs|
      ensures Disjoint(bs[i], bs[j])
    {
      ChainedOrdered(bs, start, stop, i, j);
    }
    forall i | 0 <= i < |bs|
      ensures start <= bs[i].base && End(bs[i]) <= stop
    {
      if 0 < i {
        ChainedOrdered(bs, start, stop, 0, i);
      }
      if i < |bs| - 1 {
        ChainedOrdered(bs, start, stop, i, |bs| - 1);
      }
    }
  }

  /** Every index of the chain's range lies in the first block, or in a later one. */
  lemma {:induction false} ChainedCovers(bs: seq<Block>, start: nat, stop: nat)
    requires Chained(bs, start, stop)
    ensures Covers(bs, start, stop)
    decreases |bs|
  {
    if |bs| > 0 {
      var rest := bs[1..];
      assert Chained(rest, End(bs[0]), stop) by {
        forall i | 0 < i < |rest|
          ensures rest[i].base == End(rest[i - 1])
        {
          assert rest[i] == bs[i + 1] && rest[i - 1] == bs[i];
        }
      }
      ChainedCovers(rest, End(bs[0]), stop);
      forall k | start <= k < stop
        ensures OwnedIn(bs, k)
      {
        if k < End(bs[0]) {
          assert bs[0] in bs && Owns(bs[0], k);
        } else {
          assert OwnedIn(rest, k);
          var b :| b in rest && Owns(b, k);
          assert b in bs;
        }
      }
    }
  }

  /** Every allocated block holds one guess per row and ends within the flat vector. */
  lemma BlocksFit(L: Layout)
    requires Allocated(L)
    ensures forall b :: b in Blocks(L) ==> |b.guess| == b.rows && End(b) <= L.numVars
  {
    LayoutPartition(L);
    ChainedBounds(Blocks(L), 0, L.numVars);
    InterleaveMembers(L.eefPos, L.eefVel);
    forall b | b in Blocks(L) ensures |b.guess| == b.rows && End(b) <= L.numVars {
      var i :| 0 <= i < |Blocks(L)| && Blocks(L)[i] == b;
      if b in L.eefPos {
        var e :| 0 <= e < |L.eefPos| && L.eefPos[e] == b;
      } else if b in L.eefVel {
        var e :| 0 <= e < |L.eefVel| && L.eefVel[e] == b;
      }
    }
  }

  /**
   * Contiguous layout: the blocks, in allocation order, run one after another
   * from 0 to `numVars`; they are pairwise disjoint and every flat index below
   * `numVars` belongs to exactly one of them.
   */
  lemma LayoutPartition(L: Layout)
    requires Allocated(L)
    ensures Chained(Blocks(L), 0, L.numVars)
    ensures PairwiseDisjoint(Blocks(L)) && Separated(Blocks(L))
    ensures Covers(Blocks(L), 0, L.numVars)
    ensures forall k: nat, i, j ::
              (0 <= i < |Blocks(L)| && 0 <= j < |Blocks(L)| && i != j && Owns(Blocks(L)[i], k)) ==> !Owns(Blocks(L)[j], k)
  {
    var m := |L.eefPos|;
    var n := L.jntQ.rows;
    var head := [L.com, L.comd, L.lmom, L.amom];
    var tail := [L.jntQ, L.jntQd, L.totalQd, L.totalQdd];
    assert Chained(head, 0, 12);
    EndeffectorsChained(L);
    var mid := Interleave(L.eefPos, L.eefVel);
    assert Chained(tail, 12 + 6 * m, 12 + 6 * m + 4 * n);
    ChainedAppend(head, mid, 0, 12, 12 + 6 * m);
    ChainedAppend(head + mid, tail, 0, 12 + 6 * m, L.numVars);
    var bs := Blocks(L);
    assert bs == head + mid + tail;
    ChainedBounds(bs, 0, L.numVars);
    ChainedCovers(bs, 0, L.numVars);
    forall b1, b2 | b1 in bs && b2 in bs && b1 != b2
      ensures Disjoint(b1, b2)
    {
      var i :| 0 <= i < |bs| && bs[i] == b1;
      var j :| 0 <= j < |bs| && bs[j] == b2;
      assert i != j;
      if i < j {
        assert Disjoint(bs[i], bs[j]);
      } else {
        assert Disjoint(bs[j], bs[i]);
      }
    }
    forall k: nat, i, j | 0 <= i < |bs| && 0 <= j < |bs| && i != j && Owns(bs[i], k)
      ensures !Owns(bs[j], k)
    {
      if i < j {
        assert Disjoint(bs[i], bs[j]);
      } else {
        assert Disjoint(bs[j], bs[i]);
      }
    }
  }
}

=== FILE: writeback.dfy ===
/**
 * The end of a successful pass through the try block of `optimizePosture`:
 * the solver's values are copied into `solution_`, every block's guess is
 * refreshed from it (`saveSolution`), and the momenta are written back into
 * the current state.
 */
module WriteBack {
  import opened Common
  import opened Variables
  import opened Robot

  /** `solution_(k) = vars_[k].get(X)` for every flat index. */
  function ReadSolution(x: nat -> real, numVars: nat): (sol: seq<real>)
    ensures |sol| == numVars && forall k :: 0 <= k < numVars ==> sol[k] == x(k)
  {
    seq(numVars, k requires 0 <= k => x(k))
  }

  /** `c` is `b` with possibly another guess. */
  predicate Reguessed(b: Block, c: Block) {
    c == b.(guess := c.guess)
  }

  /** Two layouts that differ at most in their blocks' guesses. */
  predicate SameShape(L1: Layout, L2: Layout) {
    && Reguessed(L1.com, L2.com) && Reguessed(L1.comd, L2.comd)
    && Reguessed(L1.lmom, L2.lmom) && Reguessed(L1.amom, L2.amom)
    && Reguessed(L1.jntQ, L2.jntQ) && Reguessed(L1.jntQd, L2.jntQd)
    && Reguessed(L1.totalQd, L2.totalQd) && Reguessed(L1.totalQdd, L2.totalQdd)
    && |L1.eefPos| == |L2.eefPos| && |L1.eefVel| == |L2.eefVel|
    && (forall e :: 0 <= e < |L1.eefPos| ==> Reguessed(L1.eefPos[e], L2.eefPos[e]))
    && (forall e :: 0 <= e < |L1.eefVel| ==> Reguessed(L1.eefVel[e], L2.eefVel[e]))
    && L1.numVars == L2.numVars
  }

  /** The block's guess is the slice of `sol` at the block's own slots. */
  predicate Saved(b: Block, sol: seq<real>) {
    End(b) <= |sol| && b.guess == sol[b.base..End(b)]
  }

  /** Every block of the layout holds its slice of `sol`. */
  predicate Holds(L: Layout, sol: seq<real>) {
    && Saved(L.com, sol) && Saved(L.comd, sol) && Saved(L.lmom, sol) && Saved(L.amom, sol)
    && Saved(L.jntQ, sol) && Saved(L.jntQd, sol) && Saved(L.totalQd, sol) && Saved(L.totalQdd, sol)
    && (forall e :: 0 <= e < |L.eefPos| ==> Saved(L.eefPos[e], sol))
    && (forall e :: 0 <= e < |L.eefVel| ==> Saved(L.eefVel[e], sol))
  }

  lemma HoldsBlocks(L: Layout, sol: seq<real>)
    requires |L.eefPos| == |L.eefVel| && Holds(L, sol)
    ensures forall b :: b in Blocks(L) ==> Saved(b, sol)
  {
    InterleaveMembers(L.eefPos, L.eefVel);
    forall b | b in Blocks(L) ensures Saved(b, sol) {
      if b in L.eefPos {
        var e :| 0 <= e < |L.eefPos| && L.eefPos[e] == b;
      } else if b in L.eefVel {
        var e :| 0 <= e < |L.eefVel| && L.eefVel[e] == b;
      }
    }
  }

  /** Every block holds one guess per row. */
  predicate GuessesFit(L: Layout) {
    && |L.com.guess| == L.com.rows && |L.comd.guess| == L.comd.rows
    && |L.lmom.guess| == L.lmom.rows && |L.amom.guess| == L.amom.rows
    && |L.jntQ.guess| == L.jntQ.rows && |L.jntQd.guess| == L.jntQd.rows
    && |L.totalQd.guess| == L.totalQd.rows && |L.totalQdd.guess| == L.totalQdd.rows
    && (forall e :: 0 <= e < |L.eefPos| ==> |L.eefPos[e].guess| == L.eefPos[e].rows)
    && (forall e :: 0 <= e < |L.eefVel| ==> |L.eefVel[e].guess| == L.eefVel[e].rows)
  }

  lemma SaveReguesses(b: Block, sol: seq<real>)
    requires End(b) <= |sol|
    ensures Reguessed(b, SaveSolution(b, sol)) && |SaveSolution(b, sol).guess| == b.rows
  {
  }

  /** A layout of the same shape whose guesses fit their blocks is allocated like the original. */
  lemma SameShapeAllocated(L1: Layout, L2: Layout)
    requires Allocated(L1) && SameShape(L1, L2) && GuessesFit(L2)
    ensures Allocated(L2)
  {
  }

  lemma EndeffectorsFit(L: Layout, sol: seq<real>)
    requires Allocated(L) && |sol| == L.numVars
    ensures forall b :: b in L.eefPos ==> End(b) <= |sol|
    ensures forall b :: b in L.eefVel ==> End(b) <= |sol|
  {
    BlocksFit(L);
    InterleaveMembers(L.eefPos, L.eefVel);
  }

  /** `saveSolution` on each block of a list. */
  function SaveEach(bs: seq<Block>, sol: seq<real>): (r: seq<Block>)
    requires forall b :: b in bs ==> End(b) <= |sol|
    ensures |r| == |bs| && forall e :: 0 <= e < |bs| ==> r[e] == SaveSolution(bs[e], sol)
    ensures forall e :: 0 <= e < |bs| ==> Reguessed(bs[e], r[e]) && |r[e].guess| == r[e].rows
  {
    seq(|bs|, e requires 0 <= e < |bs| => SaveSolution(bs[e], sol))
  }

  /** The `saveSolution` calls of the try block, one per block. */
  function SaveAll(L: Layout, sol: seq<real>): (r: Layout)
    requires Allocated(L) && |sol| == L.numVars
    ensures Allocated(r) && SameShape(L, r)
  {
    EndeffectorsFit(L, sol);
    SaveReguesses(L.com, sol); SaveReguesses(L.comd, sol); SaveReguesses(L.lmom, sol); SaveReguesses(L.amom, sol);
    SaveReguesses(L.jntQ, sol); SaveReguesses(L.jntQd, sol); SaveReguesses(L.totalQd, sol); SaveReguesses(L.totalQdd, sol);
    var r := L.(
      com := SaveSolution(L.com, sol), comd := SaveSolution(L.comd, sol),
      lmom := SaveSolution(L.lmom, sol), amom := SaveSolution(L.amom, sol),
      jntQ := SaveSolution(L.jntQ, sol), jntQd := SaveSolution(L.jntQd, sol),
      totalQd := SaveSolution(L.totalQd, sol), totalQdd := SaveSolution(L.totalQdd, sol),
      eefPos := SaveEach(L.eefPos, sol),
      eefVel := SaveEach(L.eefVel, sol));
    SameShapeAllocated(L, r);
    r
  }

  /** After the calls every block holds its slice of the solution. */
  lemma SaveAllHolds(L: Layout, sol: seq<real>)
    requires Allocated(L) && |sol| == L.numVars
    ensures Holds(SaveAll(L, sol), sol)
  {
  }

  /** Blocks that hold their slices read back the solution at every slot they own. */
  lemma SavedReadBack(bs: seq<Block>, sol: seq<real>)
    requires forall b :: b in bs ==> Saved(b, sol)
    ensures forall b, k: nat :: b in bs && Owns(b, k) ==> Saved(b, sol) && b.guess[k - b.base] == sol[k]
  {
  }

  /**
   * Round trip: every index below `numVars` is owned by a saved block, and
   * reading that block's guess back at the index gives the solution.
   */
  lemma SaveRoundTrip(L: Layout, sol: seq<real>)
    requires Allocated(L) && |sol| == L.numVars
    ensures Covers(Blocks(SaveAll(L, sol)), 0, L.numVars)
    ensures forall b, k: nat :: b in Blocks(SaveAll(L, sol)) && Owns(b, k) ==> Saved(b, sol) && b.guess[k - b.base] == sol[k]
  {
    var r := SaveAll(L, sol);
    SaveAllHolds(L, sol);
    LayoutPartition(r);
    HoldsBlocks(r, sol);
    SavedReadBack(Blocks(r), sol);
  }

  /** A block that already holds its slice is left as it was by `saveSolution`. */
  lemma SavedFixed(b: Block, sol: seq<real>)
    requires Saved(b, sol)
    ensures SaveSolution(b, sol) == b
  {
    forall row | 0 <= row < b.rows ensures sol[Id(b, row)] == b.guess[row] {
      assert b.guess[row] == sol[b.base..End(b)][row];
    }
    SaveOwnGuess(b, sol);
  }

  /** Saving a solution that already agrees with every guess changes nothing. */
  lemma SaveOwnSolution(L: Layout, sol: seq<real>)
    requires Allocated(L) && |sol| == L.numVars && Holds(L, sol)
    ensures SaveAll(L, sol) == L
  {
    var r := SaveAll(L, sol);
    SavedFixed(L.com, sol); SavedFixed(L.comd, sol); SavedFixed(L.lmom, sol); SavedFixed(L.amom, sol);
    SavedFixed(L.jntQ, sol); SavedFixed(L.jntQd, sol); SavedFixed(L.totalQd, sol); SavedFixed(L.totalQdd, sol);
    forall e | 0 <= e < |L.eefPos| ensures r.eefPos[e] == L.eefPos[e] {
      SavedFixed(L.eefPos[e], sol);
    }
    forall e | 0 <= e < |L.eefVel| ensures r.eefVel[e] == L.eefVel[e] {
      SavedFixed(L.eefVel[e], sol);
    }
    assert r.eefPos == L.eefPos;
    assert r.eefVel == L.eefVel;
  }

  /** Saving the same solution twice is saving it once. */
  lemma SaveIdempotent(L: Layout, sol: seq<real>)
    requires Allocated(L) && |sol| == L.numVars
    ensures SaveAll(SaveAll(L, sol), sol) == SaveAll(L, sol)
  {
    SaveAllHolds(L, sol);
    SaveOwnSolution(SaveAll(L, sol), sol);
  }

  /**
   * The "storing results" step: the linear and the angular momentum are read
   * from the first column of their blocks' guesses into the current state,
   * which keeps every other field.
   */
  function WriteMomenta(saved: Layout, cur: KinState): (s: KinState)
    requires Allocated(saved)
    ensures s.(linMom := cur.linMom, angMom := cur.angMom) == cur
  {
    cur.(linMom := FromColumn(saved.lmom.guess), angMom := FromColumn(saved.amom.guess))
  }

  /**
   * After the write-back the current state holds the solver's momenta: flat
   * indices 6 to 8 for the linear and 9 to 11 for the angular momentum.
   */
  lemma CommitMomenta(L: Layout, cur: KinState, sol: seq<real>)
    requires Allocated(L) && |sol| == L.numVars
    ensures WriteMomenta(SaveAll(L, sol), cur).linMom == Vec3(sol[6], sol[7], sol[8])
    ensures WriteMomenta(SaveAll(L, sol), cur).angMom == Vec3(sol[9], sol[10], sol[11])
  {
    var saved := SaveAll(L, sol);
    assert saved.lmom.guess == sol[6..9] && saved.amom.guess == sol[9..12];
  }
}
